=== FILE: README.md ===
# RN_APP_TEMPLATE core, modelled in Dafny

This project models the logic of a React Native app template. It covers the
string helpers, the date and greeting helpers, and the shared HTTP client's
interceptors. It also covers the `auth` and `company` Redux slices with their
thunks, the credential store behind the access token, and the share and
download file services. Everything the app gets from outside is a parameter
of the model:

- the clock and the hour the time-zone formatter prints;
- the network probe and the server's answer;
- the native keychain, with a success flag;
- the file system, as the set of paths that exist;
- the native share module, which receives the request the model returns.

JavaScript values are the datatype `JsValues.JsValue`, with JavaScript
truthiness, own-property access, `||` and `String(...)` conversion. Numbers
are integers.

Modules, one per source file plus five shared ones:

| file | module | models |
|---|---|---|
| wrappers.dfy | Wrappers | `Option` and `Result` |
| decimal.dfy | Decimal | decimal rendering of naturals and its inverse |
| text.dfy | Text | ASCII case, whitespace, `trim`, `split`/`join` |
| redux.dfy | Redux | the store applying a slice reducer to a sequence of dispatched actions |
| js_values.dfy | JsValues | JavaScript values, truthiness, `?.`, `||`, `String()` |
| string_utils.dfy | StringUtils | src/shared/utils/stringUtils.js |
| date_utils.dfy | DateUtils | src/shared/utils/dateUtils.js |
| greet_utils.dfy | GreetUtils | src/shared/utils/greetUtils.js |
| secure_store.dfy | SecureStore | `setSecureItem` / `getSecureItem` of src/shared/services/storage/keychain.js |
| api.dfy | Api | src/shared/services/api.js |
| auth_slice.dfy | AuthSlice | src/modules/auth/store/authSlice.js |
| company_slice.dfy | CompanySlice | src/store/slices/companySlice.js |
| share_file_service.dfy | ShareFileService | src/shared/services/share/shareFileService.js |
| react_file_service.dfy | ReactFileService | `downloadToLocal`, `getUniqueFilePath` of src/shared/services/filesystem/reactFileService.js |

## Where the code and its description part ways

The model follows the code in these places:

- `verifyOtp` rejects only when the token and the user are both falsy. A
  response that carries just one of them signs the user in. With no user,
  the token is stored under the default username `USER_TOKEN`.
- `setSecureItem` catches its own errors. A failing keychain or a falsy
  username therefore never turns a verified OTP into a rejection. The user
  can then be signed in while no token is stored
  (`AuthSlice.SignedInWithoutStoredToken`).
- The request interceptor's offline rejection goes through the response
  interceptor's error handler, as axios chains them. Callers therefore see
  the string 'No internet available', not the object that was thrown.
- `getUniqueFilePath` puts the counter before the last '.' of the whole
  path. When only a directory name holds a '.', the counter lands inside
  the directory name (`ReactFileService.MarkerBeforeLastDot`).

## Model

| member | source | states |
|---|---|---|
| StringUtils.CapitalizeFirst | src/shared/utils/stringUtils.js:36-39 | length kept, first character not lower-case, same letters case-insensitively, whitespace positions kept |
| StringUtils.CapitalizeFirstIdempotent | src/shared/utils/stringUtils.js:36-39 | capitalising twice is capitalising once |
| StringUtils.CapitalizeWords | src/shared/utils/stringUtils.js:47-54 | length kept; each character is upper-cased at position 0 or after a space and lower-cased elsewhere |
| StringUtils.SplitCapitalizeJoin | src/shared/utils/stringUtils.js:49-53 | splitting on spaces, capitalising each piece and joining equals capitalising at word starts character by character |
| StringUtils.CapitalizeWordsKeepsSpaces | src/shared/utils/stringUtils.js:47-54 | spaces stay exactly where they were |
| StringUtils.GetLabel | src/shared/utils/stringUtils.js:71-80 | the key spelled one character at a time (`_` and `-` become a space, a capital becomes a space and its lower-case letter, anything else stays), then trimmed and capitalised; no edge whitespace; same non-space characters as the key, lower-cased |
| StringUtils.SpelledStages | src/shared/utils/stringUtils.js:74-78 | separator replacement, a space before each capital and lower-casing together spell the key out character by character |
| StringUtils.SpaceBeforeCapitals | src/shared/utils/stringUtils.js:76 | the result is as long as the input plus one for each capital |
| StringUtils.SpaceBeforeCapitalsAt | src/shared/utils/stringUtils.js:76 | each character is written, as a space and itself when it is a capital and as itself otherwise, right after the rewrite of the text before it, which is its index plus the capitals before it long |
| StringUtils.GetLabelOfTwoWords | src/shared/utils/stringUtils.js:71-80 | two lower-case words separated by a space give the first capitalised, a space, then the second |
| StringUtils.GetLabelOfSeparated | src/shared/utils/stringUtils.js:62-65 | snake_case and kebab-case pairs give "Word other" ("user_email" becomes "User email") |
| StringUtils.GetLabelOfCamelCase | src/shared/utils/stringUtils.js:62-65 | a camelCase pair gives "Word other" with the capital lowered ("firstName" becomes "First name") |
| StringUtils.SpaceBeforeCapitalsKeepsContent | src/shared/utils/stringUtils.js:76 | the capital-letter rewrite inserts only spaces |
| Text.Trim | src/shared/utils/stringUtils.js:88-90 | result is no longer than the input and has no whitespace at either end |
| Text.TrimDecomposes | src/shared/utils/stringUtils.js:88-90 | the input is whitespace, then the trimmed text, then whitespace |
| Text.TrimOfTrimmed | src/shared/utils/stringUtils.js:88-90 | a string without edge whitespace is its own trim |
| Text.TrimEmptyIff | src/shared/utils/stringUtils.js:88-90 | the trim is empty exactly for whitespace-only input |
| StringUtils.RemoveSpaces | src/shared/utils/stringUtils.js:96-98 | result has no whitespace and is no longer than the input |
| StringUtils.RemoveSpacesKeepsCounts | src/shared/utils/stringUtils.js:96-98 | every non-whitespace character occurs as often as in the input |
| StringUtils.RemoveSpacesConcat | src/shared/utils/stringUtils.js:96-98 | deletion distributes over concatenation, so order is kept |
| StringUtils.RemoveSpacesFixpoint | src/shared/utils/stringUtils.js:96-98 | unchanged exactly on whitespace-free strings; idempotent |
| StringUtils.CollapseSpaces | src/shared/utils/stringUtils.js:105 | no two adjacent whitespace characters, only plain spaces, empty iff input empty, starts with whitespace iff the input does |
| StringUtils.CollapseKeepsContent | src/shared/utils/stringUtils.js:105 | collapsing deletes and rewrites whitespace only |
| StringUtils.Words | src/shared/utils/stringUtils.js:105 | the words of a string are non-empty and free of whitespace |
| StringUtils.WordsOfBlank | src/shared/utils/stringUtils.js:105 | a string has no words exactly when it is all whitespace |
| StringUtils.WordsOfUnwords | src/shared/utils/stringUtils.js:105 | joining words with single spaces and reading the words back gives the same words |
| StringUtils.CollapseIsWordsJoined | src/shared/utils/stringUtils.js:105 | each maximal whitespace run becomes exactly one space: the result is the words joined by single spaces, with one space in front or behind exactly where the input has whitespace there |
| StringUtils.TrimUnique | src/shared/utils/stringUtils.js:105 | trimming text wrapped in whitespace gives the text back when it has no edge whitespace |
| StringUtils.NormalizeSpaces | src/shared/utils/stringUtils.js:104-106 | the words of the input joined by single spaces; hence no edge whitespace, no double whitespace, only plain spaces |
| StringUtils.NormalizeIsWordsJoined | src/shared/utils/stringUtils.js:104-106 | trimming the collapsed text leaves exactly the words joined by single spaces |
| StringUtils.NormalizeSpacesFixpoint | src/shared/utils/stringUtils.js:104-106 | unchanged exactly on normalised strings; idempotent |
| StringUtils.NormalizeSpacesKeepsContent | src/shared/utils/stringUtils.js:104-106 | the non-whitespace characters are those of the input, in order |
| StringUtils.IsEmpty | src/shared/utils/stringUtils.js:114-116 | true exactly for empty or whitespace-only strings |
| StringUtils.SafeString | src/shared/utils/stringUtils.js:122-124 | the fallback for every falsy value; a non-empty string itself; a positive or negative number as its decimal digits, signed; true as "true"; an object as "[object Object]"; an array as its `String()` |
| StringUtils.Truncate | src/shared/utils/stringUtils.js:134-139 | empty stays empty; short input unchanged; long input is its first maxLength characters plus "..."; a negative limit slices from the end |
| StringUtils.TruncateDefault | src/shared/utils/stringUtils.js:134-139 | with the default limit of 20: input of at most 20 characters unchanged, longer input cut to its first 20 characters plus "..." |
| StringUtils.TruncateShape | src/shared/utils/stringUtils.js:134-139 | the result is the input or a proper prefix plus "...", at most maxLength + 3 long |
| StringUtils.NormalizeForSearch | src/shared/utils/stringUtils.js:147-149 | the lower-cased `normalizeSpaces` result, that is the input's words joined by single spaces and lower-cased; no upper-case letters |
| StringUtils.NormalizeForSearchIdempotent | src/shared/utils/stringUtils.js:147-149 | applying it twice is applying it once |
| StringUtils.GetInitials | src/shared/utils/stringUtils.js:157-169 | empty exactly for non-strings and blank strings; otherwise, in the trimmed text, the first two characters upper-cased when it has no space, else its first character and the first character after its first run of spaces, upper-cased |
| StringUtils.InitialsOf | src/shared/utils/stringUtils.js:162-168 | one word gives its first two characters upper-cased; two or more give the first characters of the first two words upper-cased |
| StringUtils.InitialsOfTrimmed | src/shared/utils/stringUtils.js:160-168 | splitting on single spaces and dropping empty pieces finds the same initials as reading them off by position |
| StringUtils.GetInitialsOfOneWord | src/shared/utils/stringUtils.js:163 | one word gives its first two characters upper-cased ("John" becomes "JO") |
| StringUtils.GetInitialsOfTwoWords | src/shared/utils/stringUtils.js:160-168 | a word, any run of spaces, and a second word, whatever follows it, give the two first characters upper-cased ("John  Doe Smith" becomes "JD") |
| DateUtils.TimeAgo | src/shared/utils/dateUtils.js:83-100 | None exactly for a missing date; otherwise the text of the bucket the elapsed seconds fall in |
| DateUtils.HourText | src/shared/utils/dateUtils.js:94 | "1 hour ago" for one hour, "h hours ago" above |
| DateUtils.FutureIsJustNow | src/shared/utils/dateUtils.js:86-88 | anything less than a minute old, future dates included, is "Just now" |
| DateUtils.OldDatesCountDays | src/shared/utils/dateUtils.js:96-99 | from two days on, the text counts whole days |
| DateUtils.IsPastDate | src/shared/utils/dateUtils.js:125-128 | true exactly when a date is given and lies before now |
| DateUtils.IsFutureDate | src/shared/utils/dateUtils.js:134-137 | true exactly when a date is given and lies after now |
| DateUtils.PastFutureExclusive | src/shared/utils/dateUtils.js:125-137 | never both past and future; neither exactly when missing or equal to now |
| DateUtils.FutureDateIsJustNow | src/shared/utils/dateUtils.js:86-88 | a future date reads "Just now" |
| DateUtils.DaysBetween | src/shared/utils/dateUtils.js:145-153 | 0 when either date is missing, otherwise the ceiling of the distance in days |
| DateUtils.DaysBetweenSymmetric | src/shared/utils/dateUtils.js:145-153 | argument order does not matter |
| DateUtils.DaysBetweenZeroIff | src/shared/utils/dateUtils.js:145-153 | zero days exactly for equal instants |
| DateUtils.IsBetweenDates | src/shared/utils/dateUtils.js:159-164 | true exactly when all three dates are given and the date lies between the bounds, both included |
| DateUtils.BetweenInclusive | src/shared/utils/dateUtils.js:159-164 | both bounds are inside the range; an inverted range holds nothing |
| DateUtils.BetweenIsNoFurther | src/shared/utils/dateUtils.js:159-164 | a date in range is no more days from the start than the end is |
| GreetUtils.ParseInt10 | src/shared/utils/greetUtils.js:42-45 | a string with no digit reads as NaN; a negative value needs a '-' in the input |
| GreetUtils.ParseAllDigits | src/shared/utils/greetUtils.js:42-45 | a digit string reads as its decimal value |
| GreetUtils.ParseTwoDigits | src/shared/utils/greetUtils.js:42-45 | the two-digit hour the formatter prints reads as its value |
| GreetUtils.HourFromPart | src/shared/utils/greetUtils.js:42-45 | a missing or empty hour part reads as 0 |
| GreetUtils.GetIndianGreeting | src/shared/utils/greetUtils.js:47-62 | Morning exactly for 5-11, Afternoon for 12-16, Evening for 17-20, Night otherwise (NaN included), each with its emoji |
| GreetUtils.GreetingIsTotal | src/shared/utils/greetUtils.js:50-62 | every hour gets one of the four greetings |
| GreetUtils.GetIndianGreetingText | src/shared/utils/greetUtils.js:91-93 | one of the four messages; Morning exactly for hours 5-11, Afternoon for 12-16, Evening for 17-20 |
| GreetUtils.GetIndianGreetingWithEmoji | src/shared/utils/greetUtils.js:103-106 | the greeting text, one space, then the emoji of the same greeting |
| GreetUtils.WithEmojiMatchesText | src/shared/utils/greetUtils.js:103-106 | the exact banner of each bucket: "Good Morning" with the sunrise, "Good Afternoon" with the sun, "Good Evening" with the dusk city, "Good Night" with the crescent moon |
| GreetUtils.IsIndianNightTime | src/shared/utils/greetUtils.js:117-120 | true exactly for an integer hour of 21 or more, or below 5 |
| GreetUtils.NightIffGoodNight | src/shared/utils/greetUtils.js:59-62 | for every integer hour, night time is exactly the Good Night bucket; NaN is Good Night but not night |
| GreetUtils.MissingPartIsNight | src/shared/utils/greetUtils.js:42-45 | a missing hour part gives hour 0, Good Night, night time |
| GreetUtils.UnreadablePartIsNaN | src/shared/utils/greetUtils.js:42-62 | a non-empty part with no digit reads as NaN: Good Night, but not night time |
| GreetUtils.FormattedHourBucket | src/shared/utils/greetUtils.js:50-62 | each formatted hour "00" to "23" lands in the bucket of its value |
| SecureStore.UsernameOrDefault | src/shared/services/storage/keychain.js:66 | the default applies to undefined only |
| SecureStore.SetSecureItem | src/shared/services/storage/keychain.js:64-85 | other services untouched; with a truthy username and a working keychain the value is stored; otherwise nothing changes |
| SecureStore.GetSecureItem | src/shared/services/storage/keychain.js:89-107 | the stored entry exactly when the keychain works and holds the service; None otherwise |
| SecureStore.ReadAfterWrite | src/shared/services/storage/keychain.js:64-107 | reading back a write gives the value and the (defaulted) username |
| SecureStore.WriteKeepsOtherServices | src/shared/services/storage/keychain.js:76-80 | a write never changes what another service reads |
| SecureStore.FalsyUsernameStoresNothing | src/shared/services/storage/keychain.js:70-72 | a falsy username other than undefined stores nothing |
| Api.RequestInterceptor | src/shared/services/api.js:17-36 | fails exactly when offline, with the no-internet object; otherwise only the Authorization header may change |
| Api.BearerIffStoredToken | src/shared/services/api.js:24-28 | Authorization is set exactly when the ACCESS_TOKEN entry holds a truthy value, to "Bearer " and that value |
| Api.OfflineIgnoresStore | src/shared/services/api.js:19-21 | offline, the outcome does not depend on the store |
| Api.ErrorMessage | src/shared/services/api.js:49-68 | always truthy; maintenance first; a null error crashes the handler; 404 gives the not-found text |
| Api.FirstTruthyCandidateWins | src/shared/services/api.js:65 | otherwise the first truthy of the body message, body error, raw response and error message |
| Api.NoCandidateFallsBack | src/shared/services/api.js:65 | with no truthy candidate, the fallback text |
| Api.NotFoundIgnoresBody | src/shared/services/api.js:62-63 | a 404 gives the same text whatever the body |
| Api.MaintenanceOverridesError | src/shared/services/api.js:56 | a truthy maintenance flag decides the outcome whatever the error |
| Api.NoFlagIsNoCache | src/shared/services/api.js:53-56 | without the flag, cache data plays no part |
| Api.Call | src/shared/services/api.js:17-68 | a rejection is always truthy; offline gives the mapped no-internet error; online passes the server's answer or maps its error |
| Api.Rethrow | src/shared/services/api.js:71-102 | the helpers pass the client's outcome through unchanged |
| Api.OfflineSurfacesMessage | src/shared/services/api.js:19-21 | offline, every helper rejects with the string 'No internet available' |
| Api.VerifiedTokenIsSent | src/shared/services/api.js:24-28 | after a verified OTP with a working keychain, requests carry that token |
| AuthSlice.Reduce | src/modules/auth/store/authSlice.js:46-87 | isAuthenticated and loading follow each case's decision; only login success and reset touch otpSent; only lifecycle cases and reset touch error |
| AuthSlice.AuthDecision | src/modules/auth/store/authSlice.js:47-52 | only setAuthenticated, logout and a verified OTP decide the session |
| AuthSlice.LoadingDecision | src/modules/auth/store/authSlice.js:53-86 | loading is raised exactly by the pending cases and untouched only by the session cases |
| AuthSlice.InitialStateIsSignedOut | src/modules/auth/store/authSlice.js:36-41 | the initial state is signed out, idle, with no error and no OTP |
| AuthSlice.PendingStartsRequest | src/modules/auth/store/authSlice.js:62-65 | a pending case raises loading and clears the error, nothing else |
| AuthSlice.LoginFulfilledSendsOtp | src/modules/auth/store/authSlice.js:66-69 | a login success marks the OTP sent and does not sign in |
| AuthSlice.RejectedRecordsError | src/modules/auth/store/authSlice.js:70-73 | a rejection records its payload and keeps the session flags |
| AuthSlice.VerifyOtpFulfilledSignsIn | src/modules/auth/store/authSlice.js:78-82 | a verified OTP signs in and clears the error |
| AuthSlice.ResetClearsRequest | src/modules/auth/store/authSlice.js:53-57 | reset clears the request fields, keeps the session, and is idempotent |
| AuthSlice.SessionActionsTouchOnlySession | src/modules/auth/store/authSlice.js:47-52 | logout and setAuthenticated change only isAuthenticated |
| Redux.DispatchAllSplit | src/modules/auth/store/authSlice.js:43-88 | dispatching a sequence to a slice reducer is dispatching a prefix, then the rest from the state it left |
| AuthSlice.NoDecisionKeepsSession | src/modules/auth/store/authSlice.js:53-86 | no other case changes isAuthenticated |
| AuthSlice.LastDecisionWins | src/modules/auth/store/authSlice.js:47-82 | isAuthenticated is what the last session action wrote |
| AuthSlice.SignedInOnlyThroughSessionAction | src/modules/auth/store/authSlice.js:36-82 | from the initial state, signing in needs a session action |
| AuthSlice.NoLifecycleKeepsLoading | src/modules/auth/store/authSlice.js:47-52 | session actions leave loading alone |
| AuthSlice.LoadingFollowsLastLifecycle | src/modules/auth/store/authSlice.js:53-86 | loading is on exactly when the last lifecycle case was a pending one |
| AuthSlice.SessionData | src/modules/auth/store/authSlice.js:25 | `data.data` when it is truthy, an empty object otherwise |
| AuthSlice.LoginThunk | src/modules/auth/store/authSlice.js:5-17 | resolves with the response body exactly when the call succeeds with a non-null response; a null or undefined response rejects with a TypeError; a failed call passes its error through |
| AuthSlice.VerifyOtpThunk | src/modules/auth/store/authSlice.js:19-34 | passes errors through; a null or undefined response rejects with a TypeError; resolves exactly when token or user is truthy, with both; else rejects with the invalid-response text; the store changes only on resolution |
| AuthSlice.VerifyOtpSettled | src/modules/auth/store/authSlice.js:19-34 | fulfilled exactly on success; a rejection carries the error |
| AuthSlice.LoginSettled | src/modules/auth/store/authSlice.js:5-17 | fulfilled exactly on success; a rejection carries the error |
| AuthSlice.VerifyOtpIgnoresKeychain | src/modules/auth/store/authSlice.js:26-28 | the outcome does not depend on the keychain |
| AuthSlice.VerifyOtpStoresRawToken | src/modules/auth/store/authSlice.js:27 | the raw token is stored under ACCESS_TOKEN with the user id or the default username |
| AuthSlice.VerifyOtpTouchesOnlyAccessToken | src/modules/auth/store/authSlice.js:27 | no other service changes |
| AuthSlice.VerifyOtpFlow | src/modules/auth/store/authSlice.js:19-34 | after the round trip the request is idle; signed in exactly when token or user was truthy (or already signed in) |
| AuthSlice.SignedInWithoutStoredToken | src/modules/auth/store/authSlice.js:26-28 | with a failing keychain, signed in although nothing was stored |
| AuthSlice.TokenWithoutUser | src/modules/auth/store/authSlice.js:25-28 | a token without a user is accepted and filed under the default username |
| AuthSlice.LoginFlow | src/modules/auth/store/authSlice.js:62-73 | after the round trip the request is idle; OTP sent exactly on success (or before); session untouched |
| CompanySlice.Spread | src/store/slices/companySlice.js:36-39 | an object spreads its fields; null, undefined, booleans and numbers spread nothing |
| CompanySlice.IndexKeyed | src/store/slices/companySlice.js:36-39 | arrays and strings spread their elements under the keys "0", "1", ..., and under no other key |
| CompanySlice.Merge | src/store/slices/companySlice.js:36-39 | an object with the keys of both; the payload's values win |
| CompanySlice.Reduce | src/store/slices/companySlice.js:31-60 | status follows each case's decision; only data cases, reset and success touch data; only lifecycle cases and reset touch error |
| CompanySlice.StatusDecision | src/store/slices/companySlice.js:41-60 | setCompany and updateCompany alone leave the status |
| CompanySlice.SetCompanyReplacesData | src/store/slices/companySlice.js:32-34 | only data is replaced |
| CompanySlice.UpdateCompanyMerges | src/store/slices/companySlice.js:35-40 | a shallow merge: the payload wins, other keys kept, status and error kept |
| CompanySlice.UpdateOfNullData | src/store/slices/companySlice.js:35-40 | updating null data gives the payload's fields |
| CompanySlice.UpdateIdempotent | src/store/slices/companySlice.js:35-40 | the same update twice is the update once |
| CompanySlice.UpdateWithNothing | src/store/slices/companySlice.js:35-40 | an update with nothing to spread keeps object data |
| CompanySlice.ResetIsInitial | src/store/slices/companySlice.js:41-45 | reset gives the initial state and is idempotent |
| CompanySlice.PendingStartsLoading | src/store/slices/companySlice.js:49-52 | loading, error cleared, data kept |
| CompanySlice.FulfilledStoresData | src/store/slices/companySlice.js:53-56 | succeeded with the payload as data, error kept |
| CompanySlice.RejectedKeepsData | src/store/slices/companySlice.js:57-60 | failed with the payload as error, data kept |
| CompanySlice.DataActionsKeepStatus | src/store/slices/companySlice.js:32-40 | the data cases never move the status |
| CompanySlice.StatusFollowsLastLifecycle | src/store/slices/companySlice.js:41-60 | the status is set by the last lifecycle or reset case |
| CompanySlice.FormatCheckIsObject | src/store/slices/companySlice.js:17 | the format check passes exactly for plain objects |
| CompanySlice.CompanyDataThunk | src/store/slices/companySlice.js:10-26 | passes API errors through; resolves exactly for an object payload, with it; rejects with the format text otherwise |
| CompanySlice.Settled | src/store/slices/companySlice.js:10-26 | fulfilled exactly on success; a rejection carries the error |
| CompanySlice.FetchFlow | src/store/slices/companySlice.js:14-20 | a fetch ends succeeded with the new data exactly for an object payload, else failed with the old data |
| CompanySlice.ArrayPayloadFails | src/store/slices/companySlice.js:17-18 | an array payload fails the fetch |
| ShareFileService.NormalizeUri | src/shared/services/share/shareFileService.js:39-44 | result is always local; a local URI is unchanged; any other path gets "file://" in front |
| ShareFileService.NormalizeIdempotent | src/shared/services/share/shareFileService.js:39-44 | normalising twice is normalising once |
| ShareFileService.NormalizeKeepsPath | src/shared/services/share/shareFileService.js:39-44 | the path is the tail of the URI; only the prefix is added |
| ShareFileService.MimeFor | src/shared/services/share/shareFileService.js:20-33 | the table's type for a known key, the binary default otherwise |
| ShareFileService.KnownMimeTypes | src/shared/services/share/shareFileService.js:26-33 | pdf, png, jpg, jpeg, txt and json map to their types |
| ShareFileService.UnknownExtensionIsBinary | src/shared/services/share/shareFileService.js:73 | any other extension gives application/octet-stream |
| ShareFileService.FileTypeOrDefault | src/shared/services/share/shareFileService.js:63 | the pdf default applies to undefined only |
| ShareFileService.ValidFilePathIsNonEmptyString | src/shared/services/share/shareFileService.js:67 | the guard accepts exactly non-empty strings |
| ShareFileService.ShareFileOpen | src/shared/services/share/shareFileService.js:61-84 | None exactly for an invalid path; otherwise the normalised URI of the path, the looked-up type, the given title when truthy and "Share File" otherwise, and no failure on cancel |
| ShareFileService.OpenDefaults | src/shared/services/share/shareFileService.js:61-80 | with only a path, a PDF titled "Share File" |
| ShareFileService.ShareFileToWhatsApp | src/shared/services/share/shareFileService.js:100-122 | None exactly for an invalid path; otherwise the normalised URI of the path, the looked-up type, and no failure on cancel |
| ShareFileService.SharingAgrees | src/shared/services/share/shareFileService.js:67-111 | both ways accept the same paths and send the same URI and type |
| ShareFileService.LocalUriUntouched | src/shared/services/share/shareFileService.js:40-41 | a local URI reaches the share module as it is |
| ReactFileService.DownloadToLocal | src/shared/services/filesystem/reactFileService.js:84-98 | skipped exactly for a falsy URL or name; a saved path is the caches directory, '/', then the name, and needs the download promise to resolve; a rejected promise is passed on |
| ReactFileService.DownloadGuard | src/shared/services/filesystem/reactFileService.js:84-98 | with both arguments, the path exactly when the download promise resolves, whatever its status code |
| ReactFileService.LastIndexOf | src/shared/services/filesystem/reactFileService.js:107 | -1 exactly when absent; otherwise a position holding the character with none after it |
| ReactFileService.CandidateShape | src/shared/services/filesystem/reactFileService.js:107-118 | without a '.', " (n)" is appended; with one, it goes before the last '.' |
| ReactFileService.MarkerBeforeLastDot | src/shared/services/filesystem/reactFileService.js:114-117 | the counter goes before the last '.', wherever that is |
| ReactFileService.CandidateInjective | src/shared/services/filesystem/reactFileService.js:110-117 | different counters give different names |
| ReactFileService.TakenBound | src/shared/services/filesystem/reactFileService.js:109-118 | k taken candidates need k existing paths |
| ReactFileService.GetUniqueFilePath | src/shared/services/filesystem/reactFileService.js:103-122 | the result does not exist; the base path when free; otherwise the first free candidate, all before it taken |
| Decimal.ParseRender | src/shared/utils/dateUtils.js:91 | reading a rendered number back gives the number |
| Decimal.RenderInjective | src/shared/services/filesystem/reactFileService.js:114-117 | distinct counters are written differently, so candidate names differ |
| JsValues.Or | src/shared/services/api.js:65 | truthy iff either operand is; the first when truthy |
| JsValues.Get | src/store/slices/companySlice.js:15 | undefined unless an object has the key |

## Left out

- Unicode: case mapping, the `\s` class and `trim` cover ASCII only. Characters are code points, not UTF-16 units, so `slice` and `length` count code points.
- Floating point: numbers are integers. `NaN`, `Infinity` and fractional timestamps are not modelled, except `parseInt`'s `NaN` in the greeting.
- `toLowerCase` / `toUpperCase` of stringUtils.js (lines 18-28) are `Text.Lower` / `Text.Upper`, used as helpers. `toString()` on non-strings is only modelled where the value is a `JsValue` (`safeString`, `getInitials`). The other helpers take strings.
- Dates: `new Date(...)` of ISO strings, invalid dates and the locale formatters (`formatDate`, `formatTime` and the like), `isToday`, the start/end-of-day helpers and the add-days/months/years helpers are not modelled. They depend on time zones and the calendar.
- DateUtils.TimeAgo: takes milliseconds since the epoch; a `Date` object and a non-zero number are treated alike.
- `getIndianGreeting`'s `datetime`, `getIndianHour` and `getIndianDate`: the Intl formatter output is an input, not modelled.
- The `responseTime` measurement, the `cache` hook and the request `metadata` of api.js: clock and logging only.
- The axios transport, timeouts and retries: the server is the `transport` parameter.
- `JSON.stringify` / `JSON.parse` around the keychain: the value is stored as it is. A value that does not survive the round trip (such as `undefined`) is not modelled.
- `deleteSecureItem` and the other keychain.js helpers: no core operation calls them.
- `mimeMap` lookups of inherited keys (`constructor`, `toString`): the table is a plain map.
- Object key order of spread results: maps are unordered.
- `downloadToLocal` never inspects the download's status code: a download that resolves with a 404 or 500 still returns the local path, and the model's flag is only whether the promise resolves.
- `downloadToDownloads` and `requestStoragePermission`: platform permissions, notifications and media scanning are outside the model.
- Console logging throughout: no effect on results, except where the logged expression itself throws. `loginUser` and `verifyOtp` log `response.data` without `?.`, so a resolved `null` or `undefined` response throws a TypeError there, which their `catch` turns into a rejection. AuthSlice.LoginThunk and AuthSlice.VerifyOtpThunk model that rejection as a TypeError object. The transport is not constrained.

=== FILE: api.dfy ===
/** The decisions of the shared HTTP client: the request interceptor's online
    check and Authorization header, the response interceptor's mapping of
    failures to one message, and the helpers that rethrow it. The network,
    the connectivity probe and the clock are inputs. */
module Api {
  import opened Wrappers
  import opened JsValues
  import opened SecureStore
  import AuthSlice

  type Headers = map<string, string>

  /** What the connectivity probe reports. */
  datatype NetState = NetState(isConnected: JsValue, isInternetReachable: JsValue)

  /** `state.isConnected && state.isInternetReachable`, as a condition. */
  predicate IsOnline(net: NetState) {
    Truthy(net.isConnected) && Truthy(net.isInternetReachable)
  }

  const NoInternetMessage: string := "No internet available"
  const NoInternet: JsValue := Obj(map["message" := Str(NoInternetMessage)])
  const Maintenance: string := "Server under maintenance"
  const NotFound: string := "Requested resource not found"
  const Fallback: string := "Something went wrong."

  /** What reading `error.status` on `null` or `undefined` throws from inside
      the error handler: a TypeError object, not a message string. */
  const HandlerCrash: JsValue := NullishPropertyError

  /** The request interceptor: rejects with `{message: 'No internet
      available'}` when offline, before looking at the store; otherwise adds
      `Bearer <value>` when the ACCESS_TOKEN entry holds a truthy value. */
  function RequestInterceptor(net: NetState, store: Store, keychainOk: bool, headers: Headers)
    : (r: Result<Headers, JsValue>)
    ensures r.Failure? <==> !IsOnline(net)
    ensures r.Failure? ==> r.error == NoInternet
    ensures r.Success? ==> forall h :: h in headers && h != "Authorization" ==> h in r.value && r.value[h] == headers[h]
    ensures r.Success? ==> forall h :: h in r.value ==> h in headers || h == "Authorization"
  {
    if !IsOnline(net) then Failure(NoInternet)
    else
      var secure := GetSecureItem(store, AccessToken, keychainOk);
      if secure.Some? && Truthy(secure.value.value) then
        Success(headers["Authorization" := "Bearer " + ToJsString(secure.value.value)])
      else Success(headers)
  }

  /** Whether a token is attached: exactly when the store can be read and holds
      a truthy value under ACCESS_TOKEN. */
  lemma BearerIffStoredToken(net: NetState, store: Store, keychainOk: bool, headers: Headers)
    requires IsOnline(net) && "Authorization" !in headers
    ensures var r := RequestInterceptor(net, store, keychainOk, headers);
      r.Success?
      && ("Authorization" in r.value <==> keychainOk && AccessToken in store && Truthy(store[AccessToken].value))
      && ("Authorization" in r.value ==>
            r.value["Authorization"] == "Bearer " + ToJsString(store[AccessToken].value))
  {
  }

  /** Offline, the outcome does not depend on the store at all. */
  lemma OfflineIgnoresStore(net: NetState, s1: Store, s2: Store, ok1: bool, ok2: bool, headers: Headers)
    requires !IsOnline(net)
    ensures RequestInterceptor(net, s1, ok1, headers) == RequestInterceptor(net, s2, ok2, headers)
  {
  }

  /** The candidates the error mapper tries in order after the 404 rule:
      the body's `message`, the body's `error`, the raw response text and
      the error's own `message`. */
  function Candidates(err: JsValue): (cs: seq<JsValue>)
    ensures |cs| == 4
  {
    [Get(Get(Get(err, "response"), "data"), "message"),
     Get(Get(Get(err, "response"), "data"), "error"),
     Get(Get(err, "request"), "_response"),
     Get(err, "message")]
  }

  /** The response interceptor's error handler: the reason the request
      rejects with. `cacheData` is `state.auth.cacheData`. */
  function ErrorMessage(cacheData: JsValue, err: JsValue): (r: JsValue)
    ensures Truthy(r)
    ensures Truthy(Get(cacheData, "maintenanceStatus")) ==> r == Str(Maintenance)
    ensures !Truthy(Get(cacheData, "maintenanceStatus")) && (err.Null? || err.Undefined?) ==> r == HandlerCrash
    ensures !Truthy(Get(cacheData, "maintenanceStatus")) && Get(err, "status") == Num(404) ==> r == Str(NotFound)
  {
    if Truthy(Get(cacheData, "maintenanceStatus")) then Str(Maintenance)
    else if err.Null? || err.Undefined? then HandlerCrash
    else if Get(err, "status") == Num(404) then Str(NotFound)
    else
      var cs := Candidates(err);
      Or(cs[0], Or(cs[1], Or(cs[2], Or(cs[3], Str(Fallback)))))
  }

  /** Outside maintenance and 404, the message is the first truthy candidate. */
  lemma FirstTruthyCandidateWins(cacheData: JsValue, err: JsValue, i: nat)
    requires !Truthy(Get(cacheData, "maintenanceStatus")) && Get(err, "status") != Num(404)
    requires i < 4 && Truthy(Candidates(err)[i])
    requires forall j :: 0 <= j < i ==> !Truthy(Candidates(err)[j])
    ensures ErrorMessage(cacheData, err) == Candidates(err)[i]
  {
  }

  /** ... and the fallback text when none of them is truthy. */
  lemma NoCandidateFallsBack(cacheData: JsValue, err: JsValue)
    requires !Truthy(Get(cacheData, "maintenanceStatus")) && Get(err, "status") != Num(404)
    requires !err.Null? && !err.Undefined?
    requires forall j :: 0 <= j < 4 ==> !Truthy(Candidates(err)[j])
    ensures ErrorMessage(cacheData, err) == Str(Fallback)
  {
  }

  /** A 404 wins over any message the response body carries. */
  lemma NotFoundIgnoresBody(cacheData: JsValue, e1: JsValue, e2: JsValue)
    requires !Truthy(Get(cacheData, "maintenanceStatus"))
    requires Get(e1, "status") == Num(404) && Get(e2, "status") == Num(404)
    ensures ErrorMessage(cacheData, e1) == ErrorMessage(cacheData, e2) == Str(NotFound)
  {
  }

  /** A request through the client. `transport` stands for the server as
      reached with the final headers; a rejection of the request interceptor
      reaches the error handler just as a transport failure does. */
  function Call(net: NetState, store: Store, keychainOk: bool, cacheData: JsValue, headers: Headers,
                transport: Headers -> Result<JsValue, JsValue>): (r: Result<JsValue, JsValue>)
    ensures r.Failure? ==> Truthy(r.error)
    ensures !IsOnline(net) ==> r == Failure(ErrorMessage(cacheData, NoInternet))
    ensures IsOnline(net) ==>
      var sent := RequestInterceptor(net, store, keychainOk, headers).value;
      r == (if transport(sent).Success? then transport(sent)
            else Failure(ErrorMessage(cacheData, transport(sent).error)))
  {
    match RequestInterceptor(net, store, keychainOk, headers)
    case Failure(e) => Failure(ErrorMessage(cacheData, e))
    case Success(sent) =>
      match transport(sent)
      case Success(resp) => Success(resp)
      case Failure(e) => Failure(ErrorMessage(cacheData, e))
  }

  /** `getApi`, `postApi`, `putApi` and `deleteApi`: each catches what the
      client throws and throws it again, so the outcome reaches the caller
      unchanged. */
  function Rethrow(outcome: Result<JsValue, JsValue>): (r: Result<JsValue, JsValue>)
    ensures r == outcome
  {
    match outcome
    case Success(v) => Success(v)
    case Failure(e) => Failure(e)
  }

  /** Offline, every helper rejects with the plain string 'No internet
      available' (not the object the interceptor threw), whatever the server,
      the store and the headers. */
  lemma OfflineSurfacesMessage(net: NetState, store: Store, keychainOk: bool, headers: Headers,
                               transport: Headers -> Result<JsValue, JsValue>)
    requires !IsOnline(net)
    ensures Rethrow(Call(net, store, keychainOk, Undefined, headers, transport)) == Failure(Str(NoInternetMessage))
  {
  }

  /** A truthy maintenance flag decides the outcome on its own, whatever the
      error was. */
  lemma MaintenanceOverridesError(cacheData: JsValue, e1: JsValue, e2: JsValue)
    requires Truthy(Get(cacheData, "maintenanceStatus"))
    ensures ErrorMessage(cacheData, e1) == ErrorMessage(cacheData, e2) == Str(Maintenance)
  {
  }

  /** Without a truthy flag, `cacheData` plays no part: every such value maps
      errors as `undefined` does, which is what the auth slice's state (with
      no `cacheData` field) always provides. */
  lemma NoFlagIsNoCache(cacheData: JsValue, err: JsValue)
    requires !Truthy(Get(cacheData, "maintenanceStatus"))
    ensures ErrorMessage(cacheData, err) == ErrorMessage(Undefined, err)
  {
  }

  /** After a verified OTP whose token is a non-empty string, and with a
      working keychain, every later request carries that token. */
  lemma VerifiedTokenIsSent(response: Result<JsValue, JsValue>, store: Store, net: NetState, headers: Headers)
    requires response.Success? && AuthSlice.TokenOf(response.value).Str?
    requires AuthSlice.TokenOf(response.value).s != []
    requires Truthy(UsernameOrDefault(Get(AuthSlice.UserOf(response.value), "_id")))
    requires IsOnline(net)
    ensures var stored := AuthSlice.VerifyOtpThunk(response, store, true).1;
      var r := RequestInterceptor(net, stored, true, headers);
      r.Success? && "Authorization" in r.value
      && r.value["Authorization"] == "Bearer " + AuthSlice.TokenOf(response.value).s
  {
    AuthSlice.VerifyOtpStoresRawToken(response, store);
  }
}

=== FILE: auth_slice.dfy ===
/** The `auth` Redux slice: a four-field state record, its reducer cases, and
    the decisions the `loginUser` and `verifyOtp` thunks make on the HTTP
    outcome before they resolve or reject. */
module AuthSlice {
  import opened Wrappers
  import opened JsValues
  import Redux
  import opened SecureStore

  /** `isAuthenticated` holds whatever `setAuthenticated` was given, so it is a
      JavaScript value; the other cases only ever store booleans there. */
  datatype AuthState = AuthState(isAuthenticated: JsValue, loading: bool, error: JsValue, otpSent: bool)

  const InitialState: AuthState := AuthState(Bool(false), false, Null, false)

  datatype AuthAction =
    | SetAuthenticated(payload: JsValue)
    | Logout
    | ResetAuthState
    | LoginPending
    | LoginFulfilled(payload: JsValue)
    | LoginRejected(payload: JsValue)
    | VerifyOtpPending
    | VerifyOtpFulfilled(payload: JsValue)
    | VerifyOtpRejected(payload: JsValue)

  /** The value an action writes into `isAuthenticated`, if it writes one. */
  function AuthDecision(a: AuthAction): (d: Option<JsValue>)
    ensures d.Some? <==> a.SetAuthenticated? || a.Logout? || a.VerifyOtpFulfilled?
  {
    match a
    case SetAuthenticated(p) => Some(p)
    case Logout => Some(Bool(false))
    case VerifyOtpFulfilled(_) => Some(Bool(true))
    case _ => None
  }

  /** The value an action writes into `loading`, if it writes one. */
  function LoadingDecision(a: AuthAction): (d: Option<bool>)
    ensures d == Some(true) <==> a.LoginPending? || a.VerifyOtpPending?
    ensures d.None? <==> a.SetAuthenticated? || a.Logout?
  {
    match a
    case SetAuthenticated(_) => None
    case Logout => None
    case LoginPending => Some(true)
    case VerifyOtpPending => Some(true)
    case _ => Some(false)
  }

  /** The slice reducer, one branch per case. */
  function Reduce(s: AuthState, a: AuthAction): (r: AuthState)
    ensures r.isAuthenticated == (if AuthDecision(a).Some? then AuthDecision(a).value else s.isAuthenticated)
    ensures r.loading == (if LoadingDecision(a).Some? then LoadingDecision(a).value else s.loading)
    ensures r.otpSent != s.otpSent ==> a.LoginFulfilled? || a.ResetAuthState?
    ensures r.error != s.error ==>
      a.ResetAuthState? || a.LoginPending? || a.VerifyOtpPending? || a.VerifyOtpFulfilled?
      || a.LoginRejected? || a.VerifyOtpRejected?
  {
    match a
    case SetAuthenticated(p) => s.(isAuthenticated := p)
    case Logout => s.(isAuthenticated := Bool(false))
    case ResetAuthState => s.(loading := false, error := Null, otpSent := false)
    case LoginPending => s.(loading := true, error := Null)
    case LoginFulfilled(_) => s.(loading := false, otpSent := true)
    case LoginRejected(p) => s.(loading := false, error := p)
    case VerifyOtpPending => s.(loading := true, error := Null)
    case VerifyOtpFulfilled(_) => s.(loading := false, isAuthenticated := Bool(true), error := Null)
    case VerifyOtpRejected(p) => s.(loading := false, error := p)
  }

  /* ---------------- single cases ---------------- */

  /** Starting point: signed out, idle, no error, no OTP requested. */
  lemma InitialStateIsSignedOut()
    ensures !Truthy(InitialState.isAuthenticated) && !InitialState.loading
    ensures InitialState.error == Null && !InitialState.otpSent
  {
  }

  /** Both pending cases raise `loading`, clear the error and touch nothing else. */
  lemma PendingStartsRequest(s: AuthState, a: AuthAction)
    requires a.LoginPending? || a.VerifyOtpPending?
    ensures var r := Reduce(s, a);
      r.loading && r.error == Null
      && r.isAuthenticated == s.isAuthenticated && r.otpSent == s.otpSent
  {
  }

  /** A successful login marks the OTP as sent and never signs the user in. */
  lemma LoginFulfilledSendsOtp(s: AuthState, payload: JsValue)
    ensures var r := Reduce(s, LoginFulfilled(payload));
      !r.loading && r.otpSent && r.isAuthenticated == s.isAuthenticated && r.error == s.error
  {
  }

  /** Either rejection records its payload as the error and keeps the session
      flags. */
  lemma RejectedRecordsError(s: AuthState, a: AuthAction)
    requires a.LoginRejected? || a.VerifyOtpRejected?
    ensures var r := Reduce(s, a);
      !r.loading && r.error == a.payload
      && r.isAuthenticated == s.isAuthenticated && r.otpSent == s.otpSent
  {
  }

  /** A verified OTP signs the user in and clears any error. */
  lemma VerifyOtpFulfilledSignsIn(s: AuthState, payload: JsValue)
    ensures var r := Reduce(s, VerifyOtpFulfilled(payload));
      r.isAuthenticated == Bool(true) && !r.loading && r.error == Null && r.otpSent == s.otpSent
  {
  }

  /** `resetAuthState` clears the request fields, keeps the session, and a
      second reset changes nothing. */
  lemma ResetClearsRequest(s: AuthState)
    ensures var r := Reduce(s, ResetAuthState);
      r == InitialState.(isAuthenticated := s.isAuthenticated)
      && Reduce(r, ResetAuthState) == r
  {
  }

  /** `logout` and `setAuthenticated` change only `isAuthenticated`. */
  lemma SessionActionsTouchOnlySession(s: AuthState, a: AuthAction)
    requires a.Logout? || a.SetAuthenticated?
    ensures Reduce(s, a) == s.(isAuthenticated := if a.Logout? then Bool(false) else a.payload)
  {
  }

  /* ---------------- sequences of actions ---------------- */

  /** Without any session action, `isAuthenticated` keeps its value. */
  lemma {:induction false} NoDecisionKeepsSession(s: AuthState, acts: seq<AuthAction>)
    requires forall j :: 0 <= j < |acts| ==> AuthDecision(acts[j]).None?
    ensures Redux.DispatchAll(Reduce, s, acts).isAuthenticated == s.isAuthenticated
    decreases |acts|
  {
    if acts != [] {
      NoDecisionKeepsSession(s, acts[..|acts| - 1]);
    }
  }

  /** The session flag is whatever the last `setAuthenticated`, `logout` or
      verified OTP wrote; nothing else in between can change it. */
  lemma LastDecisionWins(s: AuthState, acts: seq<AuthAction>, i: nat)
    requires i < |acts| && AuthDecision(acts[i]).Some?
    requires forall j :: i < j < |acts| ==> AuthDecision(acts[j]).None?
    ensures Redux.DispatchAll(Reduce, s, acts).isAuthenticated == AuthDecision(acts[i]).value
  {
    Redux.DispatchAllSplit(Reduce, s, acts, i + 1);
    var mid := Redux.DispatchAll(Reduce, s, acts[..i + 1]);
    assert acts[..i + 1][..i] == acts[..i];
    assert mid.isAuthenticated == AuthDecision(acts[i]).value;
    var rest := acts[i + 1..];
    forall j | 0 <= j < |rest|
      ensures AuthDecision(rest[j]).None?
    {
      assert rest[j] == acts[i + 1 + j];
    }
    NoDecisionKeepsSession(mid, rest);
  }

  /** Starting from the initial state, a user is signed in only after some
      session action. */
  lemma SignedInOnlyThroughSessionAction(acts: seq<AuthAction>)
    requires Truthy(Redux.DispatchAll(Reduce, InitialState, acts).isAuthenticated)
    ensures exists j :: 0 <= j < |acts| && AuthDecision(acts[j]).Some?
  {
    if forall j :: 0 <= j < |acts| ==> AuthDecision(acts[j]).None? {
      NoDecisionKeepsSession(InitialState, acts);
    }
  }

  /** Without any lifecycle action, `loading` keeps its value. */
  lemma {:induction false} NoLifecycleKeepsLoading(s: AuthState, acts: seq<AuthAction>)
    requires forall j :: 0 <= j < |acts| ==> LoadingDecision(acts[j]).None?
    ensures Redux.DispatchAll(Reduce, s, acts).loading == s.loading
    decreases |acts|
  {
    if acts != [] {
      NoLifecycleKeepsLoading(s, acts[..|acts| - 1]);
    }
  }

  /** `loading` is raised exactly when the last lifecycle action was a pending
      one: it is never left on by a settled request. */
  lemma LoadingFollowsLastLifecycle(s: AuthState, acts: seq<AuthAction>, i: nat)
    requires i < |acts| && LoadingDecision(acts[i]).Some?
    requires forall j :: i < j < |acts| ==> LoadingDecision(acts[j]).None?
    ensures Redux.DispatchAll(Reduce, s, acts).loading <==> acts[i].LoginPending? || acts[i].VerifyOtpPending?
  {
    Redux.DispatchAllSplit(Reduce, s, acts, i + 1);
    var mid := Redux.DispatchAll(Reduce, s, acts[..i + 1]);
    assert acts[..i + 1][..i] == acts[..i];
    var rest := acts[i + 1..];
    forall j | 0 <= j < |rest|
      ensures LoadingDecision(rest[j]).None?
    {
      assert rest[j] == acts[i + 1 + j];
    }
    NoLifecycleKeepsLoading(mid, rest);
  }

  /* ---------------- thunks ---------------- */

  const InvalidAuthResponse: string := "Invalid authentication response"

  /** `response?.data?.data || {}`. */
  function SessionData(response: JsValue): (d: JsValue)
    ensures Truthy(d)
    ensures var inner := Get(Get(response, "data"), "data");
      && (Truthy(inner) ==> d == inner)
      && (!Truthy(inner) ==> d == Obj(map[]))
  {
    Or(Get(Get(response, "data"), "data"), Obj(map[]))
  }

  function TokenOf(response: JsValue): JsValue {
    Get(SessionData(response), "token")
  }

  function UserOf(response: JsValue): JsValue {
    Get(SessionData(response), "user")
  }

  /** Whether the thunk's logging line `response.data` throws: it reads a
      property without `?.`, so a `null` or `undefined` response is a
      TypeError, which the thunk's `catch` turns into a rejection. */
  predicate Nullish(v: JsValue) {
    v.Null? || v.Undefined?
  }

  /** `loginUser`: resolves with the response body, or rejects with the API
      error unchanged. `response` is the outcome of `postApi`. */
  function LoginThunk(response: Result<JsValue, JsValue>): (r: Result<JsValue, JsValue>)
    ensures r.Success? <==> response.Success? && !Nullish(response.value)
    ensures r.Success? ==> r.value == Get(response.value, "data")
    ensures response.Success? && Nullish(response.value) ==> r.error == NullishPropertyError
    ensures response.Failure? ==> r.error == response.error
  {
    match response
    case Success(resp) =>
      if Nullish(resp) then Failure(NullishPropertyError) else Success(Get(resp, "data"))
    case Failure(e) => Failure(e)
  }

  /** `verifyOtp`: takes the outcome of `postApi` and the credential store, and
      returns the thunk's outcome and the store afterwards. It rejects only when
      token and user are BOTH falsy; otherwise it writes the raw token under
      ACCESS_TOKEN with the user's `_id` as username and resolves with
      `{token, user}`. A keychain failure is swallowed by the store helper. */
  function VerifyOtpThunk(response: Result<JsValue, JsValue>, store: Store, keychainOk: bool)
    : (r: (Result<JsValue, JsValue>, Store))
    ensures response.Failure? ==> r == (Failure(response.error), store)
    ensures response.Success? && Nullish(response.value) ==> r == (Failure(NullishPropertyError), store)
    ensures r.0.Success? <==>
      response.Success? && (Truthy(TokenOf(response.value)) || Truthy(UserOf(response.value)))
    ensures response.Success? && !Nullish(response.value) && r.0.Failure? ==>
      r.0.error == Str(InvalidAuthResponse) && r.1 == store
    ensures r.0.Success? ==>
      r.0.value == Obj(map["token" := TokenOf(response.value), "user" := UserOf(response.value)])
  {
    match response
    case Failure(e) => (Failure(e), store)
    case Success(resp) =>
      if Nullish(resp) then (Failure(NullishPropertyError), store)
      else
        var token := TokenOf(resp);
        var user := UserOf(resp);
        if !Truthy(token) && !Truthy(user) then (Failure(Str(InvalidAuthResponse)), store)
        else
          (Success(Obj(map["token" := token, "user" := user])),
           SetSecureItem(store, AccessToken, Get(user, "_id"), token, keychainOk))
  }

  /** The action the thunk dispatches once it settles; `rejectWithValue`
      passes the error through as the payload. */
  function VerifyOtpSettled(r: Result<JsValue, JsValue>): (a: AuthAction)
    ensures a.VerifyOtpFulfilled? <==> r.Success?
    ensures r.Failure? ==> a == VerifyOtpRejected(r.error)
  {
    match r
    case Success(v) => VerifyOtpFulfilled(v)
    case Failure(e) => VerifyOtpRejected(e)
  }

  function LoginSettled(r: Result<JsValue, JsValue>): (a: AuthAction)
    ensures a.LoginFulfilled? <==> r.Success?
    ensures r.Failure? ==> a == LoginRejected(r.error)
  {
    match r
    case Success(v) => LoginFulfilled(v)
    case Failure(e) => LoginRejected(e)
  }

  /** A keychain failure cannot turn a verified OTP into a rejection: the
      outcome does not depend on whether the store write succeeds. */
  lemma VerifyOtpIgnoresKeychain(response: Result<JsValue, JsValue>, store: Store)
    ensures VerifyOtpThunk(response, store, true).0 == VerifyOtpThunk(response, store, false).0
  {
  }

  /** On success the stored value is the raw token, filed under ACCESS_TOKEN
      with the user's `_id` (or the default username when the user has none). */
  lemma VerifyOtpStoresRawToken(response: Result<JsValue, JsValue>, store: Store)
    requires response.Success?
    requires Truthy(TokenOf(response.value)) || Truthy(UserOf(response.value))
    requires Truthy(UsernameOrDefault(Get(UserOf(response.value), "_id")))
    ensures var st := VerifyOtpThunk(response, store, true).1;
      AccessToken in st
      && st[AccessToken] == Credential(UsernameOrDefault(Get(UserOf(response.value), "_id")),
                                       TokenOf(response.value))
  {
  }

  /** Whatever the thunk does, only the ACCESS_TOKEN entry can change. */
  lemma VerifyOtpTouchesOnlyAccessToken(response: Result<JsValue, JsValue>, store: Store,
                                        keychainOk: bool, service: string)
    requires service != AccessToken
    ensures var st := VerifyOtpThunk(response, store, keychainOk).1;
      (service in st <==> service in store) && (service in store ==> st[service] == store[service])
  {
  }

  /** The whole exchange: after the pending case and the settled case the
      user is signed in exactly when the response carried a token or a user,
      and the request is no longer loading. */
  lemma VerifyOtpFlow(s: AuthState, response: Result<JsValue, JsValue>, store: Store, keychainOk: bool)
    ensures var r := VerifyOtpThunk(response, store, keychainOk).0;
      var t := Reduce(Reduce(s, VerifyOtpPending), VerifyOtpSettled(r));
      !t.loading
      && (t.isAuthenticated == Bool(true) <==>
          s.isAuthenticated == Bool(true)
          || (response.Success? && (Truthy(TokenOf(response.value)) || Truthy(UserOf(response.value)))))
      && (r.Failure? ==> t.error == r.error && t.isAuthenticated == s.isAuthenticated)
  {
  }

  /** With a failing keychain the user is still signed in although no token
      was stored: the state can claim a session the store cannot back. */
  lemma SignedInWithoutStoredToken(s: AuthState, response: Result<JsValue, JsValue>, store: Store)
    requires response.Success? && Truthy(TokenOf(response.value))
    requires AccessToken !in store
    ensures var (r, st) := VerifyOtpThunk(response, store, false);
      Reduce(Reduce(s, VerifyOtpPending), VerifyOtpSettled(r)).isAuthenticated == Bool(true)
      && AccessToken !in st
  {
  }

  /** A token without a user is accepted, and is filed under the default
      username. */
  lemma TokenWithoutUser(response: Result<JsValue, JsValue>, store: Store)
    requires response.Success? && Truthy(TokenOf(response.value)) && UserOf(response.value) == Undefined
    ensures var (r, st) := VerifyOtpThunk(response, store, true);
      r.Success? && AccessToken in st && st[AccessToken].username == Str(DefaultUsername)
  {
  }

  /** A login round: once it settles the request is idle, and the OTP is
      marked as sent exactly when the login call succeeded (or it already was). */
  lemma LoginFlow(s: AuthState, response: Result<JsValue, JsValue>)
    ensures var t := Reduce(Reduce(s, LoginPending), LoginSettled(LoginThunk(response)));
      !t.loading && (t.otpSent <==> s.otpSent || (response.Success? && !Nullish(response.value)))
      && t.isAuthenticated == s.isAuthenticated
      && (response.Failure? ==> t.error == response.error)
  {
  }
}

=== FILE: company_slice.dfy ===
/** The `company` Redux slice: a status machine over `{data, status, error}`,
    the payload check of the `companyData` thunk, and the shallow merge of
    `updateCompany`. */
module CompanySlice {
  import opened Wrappers
  import opened JsValues
  import Redux
  import Decimal

  datatype Status = Idle | Loading | Succeeded | Failed

  datatype CompanyState = CompanyState(data: JsValue, status: Status, error: JsValue)

  const InitialState: CompanyState := CompanyState(Null, Idle, Null)

  const InvalidFormat: string := "Invalid company data format"

  datatype CompanyAction =
    | SetCompany(payload: JsValue)
    | UpdateCompany(payload: JsValue)
    | ResetCompany
    | Pending
    | Fulfilled(payload: JsValue)
    | Rejected(payload: JsValue)

  /* ---------------- object spread ---------------- */

  /** The index-keyed properties of a sequence, `"0"`, `"1"`, ... */
  function IndexKeyed<T>(xs: seq<T>, f: T -> JsValue): (m: map<string, JsValue>)
    ensures forall i :: 0 <= i < |xs| ==> Decimal.NatToString(i) in m && m[Decimal.NatToString(i)] == f(xs[i])
    ensures forall k :: k in m ==> exists i :: 0 <= i < |xs| && k == Decimal.NatToString(i)
    decreases |xs|
  {
    if xs == [] then map[]
    else
      var n := |xs| - 1;
      var earlier := IndexKeyed(xs[..n], f);
      IndexKeyedStep(xs, xs[..n], xs[n], f, earlier);
      earlier[Decimal.NatToString(n) := f(xs[n])]
  }

  /** Adding the entry of one more element keeps both halves of the keying. */
  lemma IndexKeyedStep<T>(xs: seq<T>, p: seq<T>, x: T, f: T -> JsValue, earlier: map<string, JsValue>)
    requires xs != [] && p == xs[..|xs| - 1] && x == xs[|xs| - 1]
    requires forall i :: 0 <= i < |p| ==> Decimal.NatToString(i) in earlier && earlier[Decimal.NatToString(i)] == f(p[i])
    requires forall k :: k in earlier ==> exists i :: 0 <= i < |p| && k == Decimal.NatToString(i)
    ensures var m := earlier[Decimal.NatToString(|p|) := f(x)];
      && (forall i :: 0 <= i < |xs| ==> Decimal.NatToString(i) in m && m[Decimal.NatToString(i)] == f(xs[i]))
      && (forall k :: k in m ==> exists i :: 0 <= i < |xs| && k == Decimal.NatToString(i))
  {
    EarlierKeysDiffer(|p|);
    KeyedStep(xs, p, x, f, earlier, Decimal.NatToString);
  }

  /** The same step for any key function whose new key differs from the
      earlier ones. */
  lemma KeyedStep<T>(xs: seq<T>, p: seq<T>, x: T, f: T -> JsValue, earlier: map<string, JsValue>, key: nat -> string)
    requires xs != [] && p == xs[..|xs| - 1] && x == xs[|xs| - 1]
    requires forall i :: 0 <= i < |p| ==> key(i) in earlier && earlier[key(i)] == f(p[i])
    requires forall k :: k in earlier ==> exists i :: 0 <= i < |p| && k == key(i)
    requires forall i :: 0 <= i < |p| ==> key(i) != key(|p|)
    ensures var m := earlier[key(|p|) := f(x)];
      && (forall i :: 0 <= i < |xs| ==> key(i) in m && m[key(i)] == f(xs[i]))
      && (forall k :: k in m ==> exists i :: 0 <= i < |xs| && k == key(i))
  {
  }

  lemma EarlierKeysDiffer(n: nat)
    ensures forall i :: 0 <= i < n ==> Decimal.NatToString(i) != Decimal.NatToString(n)
  {
    forall i | 0 <= i < n
      ensures Decimal.NatToString(i) != Decimal.NatToString(n)
    {
      if Decimal.NatToString(i) == Decimal.NatToString(n) {
        Decimal.RenderInjective(i, n);
      }
    }
  }

  function CharValue(c: char): JsValue {
    Str([c])
  }

  function SameValue(v: JsValue): JsValue {
    v
  }

  /** The own enumerable properties `{...v}` copies: an object's fields, the
      indexed elements of an array or the characters of a string, and nothing
      for `null`, `undefined`, booleans and numbers. */
  function Spread(v: JsValue): (m: map<string, JsValue>)
    ensures v.Obj? ==> m == v.fields
    ensures v.Null? || v.Undefined? || v.Bool? || v.Num? ==> m == map[]
  {
    match v
    case Obj(fields) => fields
    case Arr(items) => IndexKeyed(items, SameValue)
    case Str(s) => IndexKeyed(s, CharValue)
    case _ => map[]
  }

  /** `{...a, ...b}`: every property of `b`, and the properties of `a` that
      `b` does not have. */
  function Merge(a: JsValue, b: JsValue): (r: JsValue)
    ensures r.Obj?
    ensures r.fields.Keys == Spread(a).Keys + Spread(b).Keys
    ensures forall k :: k in Spread(b) ==> r.fields[k] == Spread(b)[k]
    ensures forall k :: k in Spread(a) && k !in Spread(b) ==> r.fields[k] == Spread(a)[k]
  {
    Obj(Spread(a) + Spread(b))
  }

  /* ---------------- reducer ---------------- */

  /** The status a case moves to, if it sets one. */
  function StatusDecision(a: CompanyAction): (d: Option<Status>)
    ensures d.None? <==> a.SetCompany? || a.UpdateCompany?
  {
    match a
    case ResetCompany => Some(Idle)
    case Pending => Some(Loading)
    case Fulfilled(_) => Some(Succeeded)
    case Rejected(_) => Some(Failed)
    case _ => None
  }

  function Reduce(s: CompanyState, a: CompanyAction): (r: CompanyState)
    ensures r.status == (if StatusDecision(a).Some? then StatusDecision(a).value else s.status)
    ensures r.data != s.data ==> a.SetCompany? || a.UpdateCompany? || a.ResetCompany? || a.Fulfilled?
    ensures r.error != s.error ==> a.ResetCompany? || a.Pending? || a.Rejected?
  {
    match a
    case SetCompany(p) => s.(data := p)
    case UpdateCompany(p) => s.(data := Merge(s.data, p))
    case ResetCompany => InitialState
    case Pending => s.(status := Loading, error := Null)
    case Fulfilled(p) => s.(status := Succeeded, data := p)
    case Rejected(p) => s.(status := Failed, error := p)
  }

  /** `setCompany` replaces the data and nothing else. */
  lemma SetCompanyReplacesData(s: CompanyState, p: JsValue)
    ensures Reduce(s, SetCompany(p)) == CompanyState(p, s.status, s.error)
  {
  }

  /** `updateCompany` is a shallow merge: the payload's keys win, the others
      are kept, and status and error stay. */
  lemma UpdateCompanyMerges(s: CompanyState, p: JsValue)
    ensures var r := Reduce(s, UpdateCompany(p));
      && r.data.Obj?
      && r.status == s.status && r.error == s.error
      && (forall k :: k in Spread(p) ==> k in r.data.fields && r.data.fields[k] == Spread(p)[k])
      && (forall k :: k in Spread(s.data) && k !in Spread(p) ==>
            k in r.data.fields && r.data.fields[k] == Spread(s.data)[k])
      && (forall k :: k in r.data.fields ==> k in Spread(s.data) || k in Spread(p))
  {
  }

  /** Merging into empty data gives the payload's own properties. */
  lemma UpdateOfNullData(s: CompanyState, fields: map<string, JsValue>)
    requires s.data == Null || s.data == Undefined
    ensures Reduce(s, UpdateCompany(Obj(fields))).data == Obj(fields)
  {
    assert map[] + fields == fields;
  }

  /** Applying the same update twice is the same as once. */
  lemma UpdateIdempotent(s: CompanyState, p: JsValue)
    ensures var r := Reduce(s, UpdateCompany(p));
      Reduce(r, UpdateCompany(p)) == r
  {
    var r := Reduce(s, UpdateCompany(p));
    assert Spread(r.data) + Spread(p) == Spread(r.data);
  }

  /** An update with nothing to spread keeps object data as it is. */
  lemma UpdateWithNothing(s: CompanyState, p: JsValue)
    requires s.data.Obj? && (p.Null? || p.Undefined? || p.Bool? || p.Num?)
    ensures Reduce(s, UpdateCompany(p)) == s
  {
    assert Spread(s.data) + map[] == s.data.fields;
  }

  /** `resetCompany` yields exactly the initial state, so it is idempotent. */
  lemma ResetIsInitial(s: CompanyState)
    ensures Reduce(s, ResetCompany) == CompanyState(Null, Idle, Null)
    ensures Reduce(Reduce(s, ResetCompany), ResetCompany) == Reduce(s, ResetCompany)
  {
  }

  lemma PendingStartsLoading(s: CompanyState)
    ensures Reduce(s, Pending) == CompanyState(s.data, Loading, Null)
  {
  }

  /** A success stores the payload and keeps the previous error. */
  lemma FulfilledStoresData(s: CompanyState, p: JsValue)
    ensures Reduce(s, Fulfilled(p)) == CompanyState(p, Succeeded, s.error)
  {
  }

  /** A failure records the error and keeps the previous data. */
  lemma RejectedKeepsData(s: CompanyState, p: JsValue)
    ensures Reduce(s, Rejected(p)) == CompanyState(s.data, Failed, p)
  {
  }

  /** `setCompany` and `updateCompany` never move the status. */
  lemma {:induction false} DataActionsKeepStatus(s: CompanyState, acts: seq<CompanyAction>)
    requires forall j :: 0 <= j < |acts| ==> StatusDecision(acts[j]).None?
    ensures Redux.DispatchAll(Reduce, s, acts).status == s.status
    decreases |acts|
  {
    if acts != [] {
      DataActionsKeepStatus(s, acts[..|acts| - 1]);
    }
  }

  /** The status is set by the last lifecycle or reset action alone. */
  lemma StatusFollowsLastLifecycle(s: CompanyState, acts: seq<CompanyAction>, i: nat)
    requires i < |acts| && StatusDecision(acts[i]).Some?
    requires forall j :: i < j < |acts| ==> StatusDecision(acts[j]).None?
    ensures Redux.DispatchAll(Reduce, s, acts).status == StatusDecision(acts[i]).value
  {
    Redux.DispatchAllSplit(Reduce, s, acts, i + 1);
    var mid := Redux.DispatchAll(Reduce, s, acts[..i + 1]);
    assert acts[..i + 1][..i] == acts[..i];
    var rest := acts[i + 1..];
    forall j | 0 <= j < |rest|
      ensures StatusDecision(rest[j]).None?
    {
      assert rest[j] == acts[i + 1 + j];
    }
    DataActionsKeepStatus(mid, rest);
  }

  /* ---------------- thunk ---------------- */

  /** The check as the source spells it: truthy, not an array, and of type
      `object` (which `null` and arrays also are). */
  predicate PassesFormatCheck(d: JsValue) {
    Truthy(d) && !d.Arr? && (d.Obj? || d.Arr? || d.Null?)
  }

  /** Only a plain object passes. */
  lemma FormatCheckIsObject(d: JsValue)
    ensures PassesFormatCheck(d) <==> d.Obj?
  {
  }

  /** `companyData`: takes the outcome of `getApi('company')`; resolves with
      `response.data.data` when it is a plain object, rejects with the format
      message otherwise, and passes an API error through unchanged. */
  function CompanyDataThunk(response: Result<JsValue, JsValue>): (r: Result<JsValue, JsValue>)
    ensures response.Failure? ==> r == Failure(response.error)
    ensures r.Success? <==> response.Success? && Get(Get(response.value, "data"), "data").Obj?
    ensures r.Success? ==> r.value == Get(Get(response.value, "data"), "data")
    ensures response.Success? && r.Failure? ==> r.error == Str(InvalidFormat)
  {
    match response
    case Failure(e) => Failure(e)
    case Success(resp) =>
      var d := Get(Get(resp, "data"), "data");
      if !PassesFormatCheck(d) then Failure(Str(InvalidFormat)) else Success(d)
  }

  function Settled(r: Result<JsValue, JsValue>): (a: CompanyAction)
    ensures a.Fulfilled? <==> r.Success?
    ensures r.Failure? ==> a == Rejected(r.error)
  {
    match r
    case Success(v) => Fulfilled(v)
    case Failure(e) => Rejected(e)
  }

  /** A fetch round: the status ends `succeeded` with the new data exactly
      when the payload is a plain object; otherwise it ends `failed` with the
      previous data kept. */
  lemma FetchFlow(s: CompanyState, response: Result<JsValue, JsValue>)
    ensures var t := Reduce(Reduce(s, Pending), Settled(CompanyDataThunk(response)));
      (t.status == Succeeded <==> response.Success? && Get(Get(response.value, "data"), "data").Obj?)
      && (t.status == Succeeded ==> t.data == Get(Get(response.value, "data"), "data") && t.error == Null)
      && (t.status != Succeeded ==> t.status == Failed && t.data == s.data)
  {
  }

  /** An array payload is refused even though arrays are objects in JavaScript. */
  lemma ArrayPayloadFails(s: CompanyState, items: seq<JsValue>)
    ensures var response := Success(Obj(map["data" := Obj(map["data" := Arr(items)])]));
      Reduce(Reduce(s, Pending), Settled(CompanyDataThunk(response)))
        == CompanyState(s.data, Failed, Str(InvalidFormat))
  {
  }
}

=== FILE: date_utils.dfy ===
/** Relative time and date-range checks. Instants are integer milliseconds
    since the epoch and the current time is the parameter `now`, so the model
    sees no clock, time zone or locale. */
module DateUtils {
  import opened Wrappers
  import Decimal

  const MsPerSecond: int := 1000
  const MsPerDay: int := 86400000

  /** A date argument as the helpers receive it: nothing, a numeric timestamp
      (falsy when it is 0), or a `Date` object (always truthy). */
  datatype DateArg = Missing | Timestamp(ms: int) | DateObject(ms: int)

  /** The `if (!date)` guard passes. */
  predicate Given(d: DateArg) {
    match d
    case Missing => false
    case Timestamp(ms) => ms != 0
    case DateObject(_) => true
  }

  /** `new Date(d)` as milliseconds, for a given argument. */
  function Ms(d: DateArg): int
    requires Given(d)
  {
    d.ms
  }

  /* ---------------- relative time ---------------- */

  /** The whole seconds elapsed, `Math.floor((now - date) / 1000)`; for a
      positive divisor the floor and Dafny's division agree. */
  function ElapsedSeconds(ms: int, now: int): int {
    (now - ms) / MsPerSecond
  }

  lemma MinutesOfMinutes(s: int)
    requires s >= 0
    ensures (s / 60) / 60 == s / 3600
  {
  }

  lemma DaysOfHours(s: int)
    requires s >= 0
    ensures (s / 3600) / 24 == s / 86400
  {
  }

  /** The hour bucket's text: singular for one hour, plural above. */
  lemma HourText(h: nat)
    ensures h == 1 ==> Decimal.NatToString(h) + " hour" + (if h > 1 then "s" else "") + " ago" == "1 hour ago"
    ensures h > 1 ==>
      (Decimal.NatToString(h) + " hour" + (if h > 1 then "s" else "") + " ago"
       == Decimal.NatToString(h) + " hours ago")
  {
    if h == 1 {
      assert Decimal.NatToString(1) == "1";
    }
  }

  /** `timeAgo`: `None` (the source's `null`) for a missing date, otherwise
      the first bucket that fits the elapsed seconds `s`. */
  function TimeAgo(date: DateArg, now: int): (r: Option<string>)
    ensures r.None? <==> !Given(date)
    ensures Given(date) ==>
      var s := ElapsedSeconds(date.ms, now);
      && (s < 60 ==> r == Some("Just now"))
      && (60 <= s < 3600 ==> r == Some(Decimal.NatToString(s / 60) + " min ago"))
      && (3600 <= s < 7200 ==> r == Some("1 hour ago"))
      && (7200 <= s < 86400 ==> r == Some(Decimal.NatToString(s / 3600) + " hours ago"))
      && (86400 <= s < 172800 ==> r == Some("Yesterday"))
      && (172800 <= s ==> r == Some(Decimal.NatToString(s / 86400) + " days ago"))
  {
    if !Given(date) then None
    else
      var seconds := ElapsedSeconds(Ms(date), now);
      if seconds < 60 then Some("Just now")
      else
        var minutes := seconds / 60;
        if minutes < 60 then Some(Decimal.NatToString(minutes) + " min ago")
        else
          MinutesOfMinutes(seconds);
          var hours := minutes / 60;
          if hours < 24 then
            HourText(hours);
            Some(Decimal.NatToString(hours) + " hour" + (if hours > 1 then "s" else "") + " ago")
          else
            DaysOfHours(seconds);
            var days := hours / 24;
            if days == 1 then Some("Yesterday")
            else Some(Decimal.NatToString(days) + " days ago")
  }

  /** Any moment not yet past, or less than a minute past, is "Just now". */
  lemma FutureIsJustNow(date: DateArg, now: int)
    requires Given(date) && date.ms > now - 60000
    ensures TimeAgo(date, now) == Some("Just now")
  {
  }

  /** From two days on, the text counts whole days of milliseconds. */
  lemma OldDatesCountDays(date: DateArg, now: int)
    requires Given(date) && now - date.ms >= 2 * MsPerDay
    ensures TimeAgo(date, now) == Some(Decimal.NatToString((now - date.ms) / MsPerDay) + " days ago")
  {
    assert ElapsedSeconds(date.ms, now) / 86400 == (now - date.ms) / MsPerDay;
  }

  /* ---------------- checks ---------------- */

  /** `isPastDate`. */
  function IsPastDate(date: DateArg, now: int): (b: bool)
    ensures b <==> Given(date) && date.ms < now
  {
    Given(date) && Ms(date) < now
  }

  /** `isFutureDate`. */
  function IsFutureDate(date: DateArg, now: int): (b: bool)
    ensures b <==> Given(date) && date.ms > now
  {
    Given(date) && Ms(date) > now
  }

  /** A date is never both past and future; it is neither exactly when it is
      missing or equal to `now`. */
  lemma PastFutureExclusive(date: DateArg, now: int)
    ensures !(IsPastDate(date, now) && IsFutureDate(date, now))
    ensures !IsPastDate(date, now) && !IsFutureDate(date, now) <==> !Given(date) || date.ms == now
  {
  }

  /** A future date is "Just now" for `timeAgo`. */
  lemma FutureDateIsJustNow(date: DateArg, now: int)
    requires IsFutureDate(date, now)
    ensures TimeAgo(date, now) == Some("Just now")
  {
  }

  /* ---------------- ranges ---------------- */

  function Abs(x: int): int {
    if x < 0 then -x else x
  }

  /** `daysBetween`: whole days between the two instants, rounded up; 0 when
      either is missing. */
  function DaysBetween(start: DateArg, end: DateArg): (r: int)
    ensures r >= 0
    ensures !Given(start) || !Given(end) ==> r == 0
    ensures Given(start) && Given(end) ==>
      var diff := Abs(end.ms - start.ms);
      (r - 1) * MsPerDay < diff <= r * MsPerDay
  {
    if !Given(start) || !Given(end) then 0
    else
      var diff := Abs(Ms(end) - Ms(start));
      (diff + MsPerDay - 1) / MsPerDay
  }

  /** The order of the arguments does not matter. */
  lemma DaysBetweenSymmetric(a: DateArg, b: DateArg)
    ensures DaysBetween(a, b) == DaysBetween(b, a)
  {
  }

  /** Zero days exactly for equal instants (or a missing one). */
  lemma DaysBetweenZeroIff(a: DateArg, b: DateArg)
    requires Given(a) && Given(b)
    ensures DaysBetween(a, b) == 0 <==> a.ms == b.ms
  {
  }

  /** `isBetweenDates`, both ends included. */
  function IsBetweenDates(date: DateArg, start: DateArg, end: DateArg): (b: bool)
    ensures b <==> Given(date) && Given(start) && Given(end) && start.ms <= date.ms <= end.ms
  {
    Given(date) && Given(start) && Given(end) && Ms(start) <= Ms(date) && Ms(date) <= Ms(end)
  }

  /** Both bounds are inside the range, and an inverted range holds nothing. */
  lemma BetweenInclusive(start: DateArg, end: DateArg, date: DateArg)
    requires Given(start) && Given(end)
    ensures start.ms <= end.ms ==> IsBetweenDates(start, start, end) && IsBetweenDates(end, start, end)
    ensures start.ms > end.ms ==> !IsBetweenDates(date, start, end)
  {
  }

  /** A date inside a range is no more days from its start than the end is. */
  lemma BetweenIsNoFurther(date: DateArg, start: DateArg, end: DateArg)
    requires IsBetweenDates(date, start, end)
    ensures DaysBetween(start, date) <= DaysBetween(start, end)
  {
  }
}

=== FILE: decimal.dfy ===
/** Decimal rendering of natural numbers, as a template literal `${n}` prints a
    non-negative integer, and the digit-run reading `parseInt(s, 10)` applies. */
module Decimal {

  predicate IsDigit(c: char) { '0' <= c <= '9' }

  predicate AllDigits(s: string) { forall i :: 0 <= i < |s| ==> IsDigit(s[i]) }

  function DigitValue(c: char): (d: nat)
    requires IsDigit(c)
    ensures d < 10
  {
    c as int - '0' as int
  }

  function DigitChar(d: nat): (c: char)
    requires d < 10
    ensures IsDigit(c) && DigitValue(c) == d
  {
    ('0' as int + d) as char
  }

  /** Shortest decimal rendering: at least one digit, no leading zero. */
  function NatToString(n: nat): (s: string)
    ensures 1 <= |s|
    ensures AllDigits(s)
    ensures s[0] == '0' ==> n == 0
    decreases n
  {
    if n < 10 then [DigitChar(n)] else NatToString(n / 10) + [DigitChar(n % 10)]
  }

  /** The value of a digit string, most significant digit first. */
  function ParseDigits(s: string): nat
    requires AllDigits(s)
    decreases |s|
  {
    if |s| == 0 then 0 else 10 * ParseDigits(s[..|s| - 1]) + DigitValue(s[|s| - 1])
  }

  /** Reading back a rendered number gives the number. */
  lemma {:induction false} ParseRender(n: nat)
    ensures ParseDigits(NatToString(n)) == n
    decreases n
  {
    if n >= 10 {
      var s := NatToString(n);
      assert s[..|s| - 1] == NatToString(n / 10);
      ParseRender(n / 10);
    }
  }

  /** Distinct numbers have distinct renderings. */
  lemma RenderInjective(n: nat, m: nat)
    requires NatToString(n) == NatToString(m)
    ensures n == m
  {
    ParseRender(n);
    ParseRender(m);
  }
}

=== FILE: greet_utils.dfy ===
/** Time-of-day greetings for Indian Standard Time. The formatted hour part
    that `Intl.DateTimeFormat` produces is an input, so the model sees no
    clock and no time-zone database; what it keeps is the reading of that
    part with `parseInt` and the hour buckets. */
module GreetUtils {
  import opened Wrappers
  import Decimal
  import Text

  /** A `parseInt` result: `NaN` or an integer. */
  datatype Hour = NaN | HourValue(h: int)

  datatype Greeting = Greeting(message: string, emoji: string, hour: Hour)

  const Sunrise: string := "\U{1F305}"
  const Sun: string := "\U{2600}\U{FE0F}"
  const CityDusk: string := "\U{1F306}"
  const Crescent: string := "\U{1F319}"

  /* ---------------- parseInt(s, 10) ---------------- */

  /** Length of the leading run of decimal digits. */
  function DigitRun(s: string): (k: nat)
    ensures k <= |s|
    ensures forall i :: 0 <= i < k ==> Decimal.IsDigit(s[i])
    ensures k < |s| ==> !Decimal.IsDigit(s[k])
    decreases |s|
  {
    if s != [] && Decimal.IsDigit(s[0]) then 1 + DigitRun(s[1..]) else 0
  }

  predicate NoDigit(s: string) {
    forall i :: 0 <= i < |s| ==> !Decimal.IsDigit(s[i])
  }

  /** `parseInt(s, 10)`: skips leading whitespace, reads an optional sign and
      then as many digits as follow; `NaN` when there is not one digit. */
  function ParseInt10(s: string): (r: Hour)
    ensures NoDigit(s) ==> r.NaN?
    ensures r.HourValue? && r.h < 0 ==> exists i :: 0 <= i < |s| && s[i] == '-'
  {
    var start := Text.LeadingSpace(s);
    var signed := start < |s| && (s[start] == '-' || s[start] == '+');
    var d0 := if signed then start + 1 else start;
    var k := DigitRun(s[d0..]);
    if k == 0 then NaN
    else
      var v: int := Decimal.ParseDigits(s[d0..][..k]);
      if signed && s[start] == '-' then HourValue(-v) else HourValue(v)
  }

  /** A string of digits alone reads as its decimal value. */
  lemma ParseAllDigits(s: string)
    requires s != [] && Decimal.AllDigits(s)
    ensures ParseInt10(s) == HourValue(Decimal.ParseDigits(s))
  {
    assert !Text.IsSpace(s[0]);
    assert Text.LeadingSpace(s) == 0;
    assert s[0..] == s;
    assert DigitRun(s) == |s|;
    assert s[..|s|] == s;
  }

  lemma ParseZero()
    ensures ParseInt10("0") == HourValue(0)
  {
    ParseAllDigits("0");
    assert "0"[..0] == [];
  }

  /** Reading back a rendered hour gives the hour. */
  lemma ParseRendered(n: nat)
    ensures ParseInt10(Decimal.NatToString(n)) == HourValue(n)
  {
    ParseAllDigits(Decimal.NatToString(n));
    Decimal.ParseRender(n);
  }

  /** The two-digit form the formatter prints, such as "07", reads as its
      value. */
  lemma ParseTwoDigits(a: nat, b: nat)
    requires a < 10 && b < 10
    ensures ParseInt10([Decimal.DigitChar(a), Decimal.DigitChar(b)]) == HourValue(10 * a + b)
  {
    var s := [Decimal.DigitChar(a), Decimal.DigitChar(b)];
    ParseAllDigits(s);
    assert s[..1] == [Decimal.DigitChar(a)];
    assert Decimal.ParseDigits(s[..1]) == a by {
      assert s[..1][..0] == [];
    }
  }

  /** The hour as the source reads it: the formatter's `hour` part, or "0"
      when the part is missing or empty. */
  function HourFromPart(part: Option<string>): (r: Hour)
    ensures part.None? || part.value == [] ==> r == HourValue(0)
    ensures part.Some? && part.value != [] ==> r == ParseInt10(part.value)
  {
    var text := if part.Some? && part.value != [] then part.value else "0";
    ParseZero();
    ParseInt10(text)
  }

  /* ---------------- buckets ---------------- */

  predicate InRange(hour: Hour, lo: int, hi: int) {
    hour.HourValue? && lo <= hour.h < hi
  }

  /** `getIndianGreeting` for a given hour part; `datetime` is not modelled. */
  function GetIndianGreeting(part: Option<string>): (g: Greeting)
    ensures g.hour == HourFromPart(part)
    ensures g.message == "Good Morning" <==> InRange(g.hour, 5, 12)
    ensures g.message == "Good Afternoon" <==> InRange(g.hour, 12, 17)
    ensures g.message == "Good Evening" <==> InRange(g.hour, 17, 21)
    ensures g.message == "Good Night" <==>
      !InRange(g.hour, 5, 12) && !InRange(g.hour, 12, 17) && !InRange(g.hour, 17, 21)
    ensures g.message == "Good Morning" ==> g.emoji == Sunrise
    ensures g.message == "Good Afternoon" ==> g.emoji == Sun
    ensures g.message == "Good Evening" ==> g.emoji == CityDusk
    ensures g.message == "Good Night" ==> g.emoji == Crescent
  {
    var hour := HourFromPart(part);
    var (message, emoji) :=
      if hour.HourValue? && hour.h >= 5 && hour.h < 12 then ("Good Morning", Sunrise)
      else if hour.HourValue? && hour.h >= 12 && hour.h < 17 then ("Good Afternoon", Sun)
      else if hour.HourValue? && hour.h >= 17 && hour.h < 21 then ("Good Evening", CityDusk)
      else ("Good Night", Crescent);
    Greeting(message, emoji, hour)
  }

  /** Every hour, `NaN` included, gets exactly one of the four greetings. */
  lemma GreetingIsTotal(part: Option<string>)
    ensures var m := GetIndianGreeting(part).message;
      m in {"Good Morning", "Good Afternoon", "Good Evening", "Good Night"}
  {
  }

  /** `getIndianGreetingText`: the message alone, chosen by the hour bucket. */
  function GetIndianGreetingText(part: Option<string>): (t: string)
    ensures t in {"Good Morning", "Good Afternoon", "Good Evening", "Good Night"}
    ensures t == "Good Morning" <==> InRange(HourFromPart(part), 5, 12)
    ensures t == "Good Afternoon" <==> InRange(HourFromPart(part), 12, 17)
    ensures t == "Good Evening" <==> InRange(HourFromPart(part), 17, 21)
  {
    GetIndianGreeting(part).message
  }

  /** `getIndianGreetingWithEmoji`: the message, one space, the emoji. */
  function GetIndianGreetingWithEmoji(part: Option<string>): (t: string)
    ensures t == GetIndianGreetingText(part) + " " + GetIndianGreeting(part).emoji
  {
    var g := GetIndianGreeting(part);
    g.message + " " + g.emoji
  }

  /** The banner of each bucket ends with that bucket's emoji. */
  lemma WithEmojiMatchesText(part: Option<string>)
    ensures var h := HourFromPart(part);
      && (InRange(h, 5, 12) ==> GetIndianGreetingWithEmoji(part) == "Good Morning " + Sunrise)
      && (InRange(h, 12, 17) ==> GetIndianGreetingWithEmoji(part) == "Good Afternoon " + Sun)
      && (InRange(h, 17, 21) ==> GetIndianGreetingWithEmoji(part) == "Good Evening " + CityDusk)
      && (!InRange(h, 5, 21) ==> GetIndianGreetingWithEmoji(part) == "Good Night " + Crescent)
  {
    var g := GetIndianGreeting(part);
    assert GetIndianGreetingWithEmoji(part) == g.message + " " + g.emoji;
  }

  /** `isIndianNightTime`: the hour is 21 or later, or before 5. */
  function IsIndianNightTime(part: Option<string>): (b: bool)
    ensures b <==>
      (HourFromPart(part).HourValue? && (HourFromPart(part).h >= 21 || HourFromPart(part).h < 5))
  {
    var hour := GetIndianGreeting(part).hour;
    hour.HourValue? && (hour.h >= 21 || hour.h < 5)
  }

  /** For every integer hour, in range or not, night time is exactly the
      "Good Night" bucket; only `NaN` greets "Good Night" without being
      night. */
  lemma NightIffGoodNight(part: Option<string>)
    ensures HourFromPart(part).HourValue? ==>
      (IsIndianNightTime(part) <==> GetIndianGreetingText(part) == "Good Night")
    ensures HourFromPart(part).NaN? ==>
      !IsIndianNightTime(part) && GetIndianGreetingText(part) == "Good Night"
  {
  }

  /** A missing hour part reads as midnight: "Good Night", and night time. */
  lemma MissingPartIsNight()
    ensures GetIndianGreeting(None) == Greeting("Good Night", Crescent, HourValue(0))
    ensures IsIndianNightTime(None)
  {
  }

  /** A part with no digit at all, such as an unexpected literal, gives `NaN`:
      "Good Night" but not night time. */
  lemma UnreadablePartIsNaN(s: string)
    requires s != [] && NoDigit(s)
    ensures GetIndianGreeting(Some(s)).hour == NaN
    ensures GetIndianGreetingText(Some(s)) == "Good Night" && !IsIndianNightTime(Some(s))
  {
  }

  /** Each formatted hour "00" to "23" lands in the bucket of its value. */
  lemma FormattedHourBucket(a: nat, b: nat)
    requires a < 10 && b < 10 && 10 * a + b < 24
    ensures var part := Some([Decimal.DigitChar(a), Decimal.DigitChar(b)]);
      var h := 10 * a + b;
      && GetIndianGreeting(part).hour == HourValue(h)
      && (GetIndianGreetingText(part) == "Good Morning" <==> 5 <= h < 12)
      && (GetIndianGreetingText(part) == "Good Afternoon" <==> 12 <= h < 17)
      && (GetIndianGreetingText(part) == "Good Evening" <==> 17 <= h < 21)
      && (IsIndianNightTime(part) <==> h < 5 || h >= 21)
  {
    ParseTwoDigits(a, b);
  }
}

=== FILE: js_values.dfy ===
/** The JavaScript values the modelled code inspects: server payloads, thunk
    rejection values, credential-store entries. Numbers are integers only. */
module JsValues {
  import Decimal
  import Text

  datatype JsValue =
    | Undefined
    | Null
    | Bool(b: bool)
    | Num(n: int)
    | Str(s: string)
    | Arr(items: seq<JsValue>)
    | Obj(fields: map<string, JsValue>)

  /** JavaScript truthiness: `undefined`, `null`, `false`, `0` and `""` are
      falsy; every array and object, even an empty one, is truthy. */
  predicate Truthy(v: JsValue) {
    match v
    case Undefined => false
    case Null => false
    case Bool(b) => b
    case Num(n) => n != 0
    case Str(s) => s != []
    case Arr(_) => true
    case Obj(_) => true
  }

  /** `v?.[key]` on an own property: `undefined` unless `v` is an object that
      has the key. */
  function Get(v: JsValue, key: string): (r: JsValue)
    ensures r != Undefined ==> v.Obj? && key in v.fields && r == v.fields[key]
    ensures v.Obj? && key in v.fields ==> r == v.fields[key]
  {
    if v.Obj? && key in v.fields then v.fields[key] else Undefined
  }

  /** `a || b`: the first operand when it is truthy, otherwise the second. */
  function Or(a: JsValue, b: JsValue): (r: JsValue)
    ensures Truthy(r) <==> Truthy(a) || Truthy(b)
    ensures Truthy(a) ==> r == a
  {
    if Truthy(a) then a else b
  }

  /** What reading a property of `null` or `undefined` throws: a TypeError
      object, not a message string. */
  const NullishPropertyError: JsValue := Obj(map["name" := Str("TypeError")])

  /** `String(v)`, as a template literal `${v}` converts its operand. Array
      elements that are `null` or `undefined` print as the empty string. */
  function ToJsString(v: JsValue): (r: string)
    ensures v.Str? ==> r == v.s
    ensures v.Num? && v.n >= 0 ==> r == Decimal.NatToString(v.n)
    ensures v.Num? && v.n < 0 ==> r == "-" + Decimal.NatToString(-v.n)
    ensures v.Bool? ==> r == (if v.b then "true" else "false")
    ensures v.Obj? ==> r == "[object Object]"
    ensures v.Arr? && v.items == [] ==> r == []
    decreases v
  {
    match v
    case Undefined => "undefined"
    case Null => "null"
    case Bool(b) => if b then "true" else "false"
    case Num(n) => if n < 0 then "-" + Decimal.NatToString(-n) else Decimal.NatToString(n)
    case Str(s) => s
    case Arr(items) =>
      if items == [] then []
      else
        Text.Join(seq(|items|, i requires 0 <= i < |items| =>
          if items[i].Undefined? || items[i].Null? then [] else ToJsString(items[i])), ',')
    case Obj(_) => "[object Object]"
  }
}

=== FILE: react_file_service.dfy ===
/** Download targets on the device: the cache path of `downloadToLocal` and
    the collision-free name of `getUniqueFilePath`. The file system is the
    finite set of paths that exist; the download itself is a parameter that
    says whether its promise resolves, whatever the HTTP status code. */
module ReactFileService {
  import opened JsValues
  import Decimal

  /* ---------------- downloadToLocal ---------------- */

  /** What a call to `downloadToLocal` ends in: `null` for missing arguments,
      the local path once the download promise resolves (the status code is
      never read, so a 404 also gives the path), or the rejection of a
      download promise that rejects, which the function does not catch. */
  datatype DownloadOutcome = Skipped | Saved(path: string) | DownloadRejected

  /** `downloadToLocal`: refuses a falsy URL or name before touching the file
      system; otherwise downloads into the caches directory under the given
      name. */
  function DownloadToLocal(cachesDir: string, fileUrl: JsValue, fileName: JsValue, downloadResolves: bool)
    : (r: DownloadOutcome)
    ensures r.Skipped? <==> !Truthy(fileUrl) || !Truthy(fileName)
    ensures r.Saved? ==>
      (&& downloadResolves && |r.path| > |cachesDir| && r.path[..|cachesDir|] == cachesDir
       && r.path[|cachesDir|] == '/' && r.path[|cachesDir| + 1..] == ToJsString(fileName))
    ensures r.DownloadRejected? ==> !downloadResolves
  {
    if !Truthy(fileUrl) || !Truthy(fileName) then Skipped
    else
      var localPath := cachesDir + "/" + ToJsString(fileName);
      if downloadResolves then Saved(localPath) else DownloadRejected
  }

  /** The guard does not depend on the download: with both arguments present,
      the outcome is the path exactly when the download promise resolves. */
  lemma DownloadGuard(cachesDir: string, fileUrl: JsValue, name: string, downloadResolves: bool)
    requires Truthy(fileUrl) && name != []
    ensures DownloadToLocal(cachesDir, fileUrl, Str(name), downloadResolves)
      == (if downloadResolves then Saved(cachesDir + "/" + name) else DownloadRejected)
  {
  }

  /* ---------------- getUniqueFilePath ---------------- */

  /** `s.lastIndexOf(c)`: the position of the last `c`, or -1. */
  function LastIndexOf(s: string, c: char): (r: int)
    ensures -1 <= r < |s|
    ensures r == -1 <==> c !in s
    ensures r >= 0 ==> s[r] == c && forall i :: r < i < |s| ==> s[i] != c
    decreases |s|
  {
    if s == [] then -1
    else if s[|s| - 1] == c then |s| - 1
    else LastIndexOf(s[..|s| - 1], c)
  }

  /** The ` (n)` marker inserted into a taken name. */
  function Marker(n: nat): (m: string)
    ensures |m| >= 4 && m[..2] == " (" && m[|m| - 1] == ')'
  {
    " (" + Decimal.NatToString(n) + ")"
  }

  /** Where the marker goes: before the last '.', or at the end when there is
      no '.'. */
  function Stem(basePath: string): (p: string)
    ensures |p| <= |basePath| && basePath[..|p|] == p
  {
    var dot := LastIndexOf(basePath, '.');
    if dot == -1 then basePath else basePath[..dot]
  }

  function Extension(basePath: string): (x: string)
    ensures Stem(basePath) + x == basePath
    ensures x == [] || x[0] == '.'
  {
    var dot := LastIndexOf(basePath, '.');
    if dot == -1 then [] else basePath[dot..]
  }

  /** The name tried on the `n`-th attempt. */
  function Candidate(basePath: string, n: nat): (c: string)
    ensures |c| >= |basePath| + 4
  {
    Stem(basePath) + Marker(n) + Extension(basePath)
  }

  /** Without a '.', the marker is appended; with one, it goes before the last
      '.', even when that '.' is in a directory name and the file has no
      extension. */
  lemma CandidateShape(basePath: string, n: nat)
    ensures '.' !in basePath ==> Candidate(basePath, n) == basePath + Marker(n)
    ensures '.' in basePath ==>
      var dot := LastIndexOf(basePath, '.');
      Candidate(basePath, n) == basePath[..dot] + Marker(n) + basePath[dot..]
  {
    if '.' !in basePath {
      assert basePath + Marker(n) + [] == basePath + Marker(n);
    }
  }

  /** Only the text after the last '.' counts as the extension: with
      `stem = "backup.tar"` and `ext = "gz"` the marker lands before ".gz",
      and with `ext = "2/notes"` it lands inside a directory name. */
  lemma MarkerBeforeLastDot(stem: string, ext: string, n: nat)
    requires '.' !in ext
    ensures Candidate(stem + "." + ext, n) == stem + Marker(n) + "." + ext
  {
    var s := stem + "." + ext;
    var dot := LastIndexOf(s, '.');
    assert s[|stem|] == '.';
    assert dot == |stem|;
    assert s[..dot] == stem;
    assert s[dot..] == "." + ext;
  }

  /** Different attempts try different names. */
  lemma CandidateInjective(basePath: string, n: nat, m: nat)
    requires Candidate(basePath, n) == Candidate(basePath, m)
    ensures n == m
  {
    var p, x := Stem(basePath), Extension(basePath);
    var sn, sm := Decimal.NatToString(n), Decimal.NatToString(m);
    var c := Candidate(basePath, n);
    assert c == p + " (" + sn + ")" + x;
    assert Candidate(basePath, m) == p + " (" + sm + ")" + x;
    assert |sn| == |sm|;
    assert c[|p| + 2..|p| + 2 + |sn|] == sn;
    assert Candidate(basePath, m)[|p| + 2..|p| + 2 + |sm|] == sm;
    Decimal.RenderInjective(n, m);
  }

  /** The names `f(1)`, ..., `f(k)`. */
  ghost function ImageUpTo(f: nat -> string, k: nat): set<string>
    decreases k
  {
    if k == 0 then {} else ImageUpTo(f, k - 1) + {f(k)}
  }

  ghost predicate InjectiveUpTo(f: nat -> string, k: nat) {
    forall n, m :: 1 <= n <= k && 1 <= m <= k && f(n) == f(m) ==> n == m
  }

  lemma {:induction false} ImageMember(f: nat -> string, k: nat, x: string)
    requires x in ImageUpTo(f, k)
    ensures exists n :: 1 <= n <= k && x == f(n)
    decreases k
  {
    if x != f(k) {
      ImageMember(f, k - 1, x);
    }
  }

  /** `k` different names make a set of `k`. */
  lemma {:induction false} ImageSize(f: nat -> string, k: nat)
    requires InjectiveUpTo(f, k)
    ensures |ImageUpTo(f, k)| == k
    decreases k
  {
    if k > 0 {
      ImageSize(f, k - 1);
      if f(k) in ImageUpTo(f, k - 1) {
        ImageMember(f, k - 1, f(k));
      }
    }
  }

  lemma {:induction false} ImageInside(f: nat -> string, k: nat, existing: set<string>)
    requires forall n :: 1 <= n <= k ==> f(n) in existing
    ensures ImageUpTo(f, k) <= existing
    decreases k
  {
    if k > 0 {
      ImageInside(f, k - 1, existing);
    }
  }

  lemma {:induction false} SubsetSize<T>(a: set<T>, b: set<T>)
    requires a <= b
    ensures |a| <= |b|
    decreases |a|
  {
    if a != {} {
      var x :| x in a;
      SubsetSize(a - {x}, b - {x});
    }
  }

  /** `k` taken attempts need `k` existing paths. */
  lemma TakenBound(basePath: string, existing: set<string>, k: nat)
    requires forall n :: 1 <= n <= k ==> Candidate(basePath, n) in existing
    ensures k <= |existing|
  {
    var f := (n: nat) => Candidate(basePath, n);
    forall n, m | 1 <= n <= k && 1 <= m <= k && f(n) == f(m)
      ensures n == m
    {
      CandidateInjective(basePath, n, m);
    }
    ImageSize(f, k);
    ImageInside(f, k, existing);
    SubsetSize(ImageUpTo(f, k), existing);
  }

  /** `getUniqueFilePath`: the base path when it is free, otherwise the first
      candidate `(1)`, `(2)`, ... that is free. The loop ends because each
      taken candidate is a distinct existing path. */
  method GetUniqueFilePath(basePath: string, existing: set<string>) returns (path: string)
    ensures path !in existing
    ensures basePath !in existing ==> path == basePath
    ensures basePath in existing ==>
      exists n :: 1 <= n && path == Candidate(basePath, n)
        && forall m :: 1 <= m < n ==> Candidate(basePath, m) in existing
  {
    path := basePath;
    var counter := 1;
    while path in existing
      invariant 1 <= counter <= |existing| + 2
      invariant counter == 1 ==> path == basePath
      invariant counter > 1 ==> basePath in existing && path == Candidate(basePath, counter - 1)
      invariant forall m :: 1 <= m < counter - 1 ==> Candidate(basePath, m) in existing
      decreases |existing| + 2 - counter
    {
      TakenBound(basePath, existing, counter - 1);
      path := Candidate(basePath, counter);
      counter := counter + 1;
    }
  }
}

=== FILE: redux.dfy ===
/** What the Redux store does with a slice reducer: every dispatched action is
    applied, in order, to the state the earlier ones left. */
module Redux {

  /** The state after dispatching `acts` one after the other. */
  function DispatchAll<S, A>(reduce: (S, A) -> S, s: S, acts: seq<A>): (r: S)
    ensures acts == [] ==> r == s
    decreases |acts|
  {
    if acts == [] then s else reduce(DispatchAll(reduce, s, acts[..|acts| - 1]), acts[|acts| - 1])
  }

  /** Dispatching a sequence is dispatching a prefix, then the rest from the
      state the prefix left. */
  lemma {:induction false} DispatchAllSplit<S, A>(reduce: (S, A) -> S, s: S, acts: seq<A>, k: nat)
    requires k <= |acts|
    ensures DispatchAll(reduce, s, acts) == DispatchAll(reduce, DispatchAll(reduce, s, acts[..k]), acts[k..])
    decreases |acts|
  {
    if |acts| > k {
      var n := |acts| - 1;
      assert acts[..n][..k] == acts[..k];
      DispatchAllSplit(reduce, s, acts[..n], k);
      assert acts[k..][..|acts[k..]| - 1] == acts[..n][k..];
    } else {
      assert acts[..k] == acts;
    }
  }
}

=== FILE: secure_store.dfy ===
/** The credential store behind `setSecureItem` and `getSecureItem`: one
    entry per service, each holding the username it belongs to and the stored
    value. The native keychain is a map; whether a native call succeeds is a
    parameter, since the model cannot see the device. */
module SecureStore {
  import opened Wrappers
  import opened JsValues

  datatype Credential = Credential(username: JsValue, value: JsValue)

  type Store = map<string, Credential>

  /** The service used when a caller names none; the access token lives here. */
  const AccessToken: string := "ACCESS_TOKEN"

  /** The username used when a caller passes none. */
  const DefaultUsername: string := "USER_TOKEN"

  /** A destructuring default applies only to `undefined`, not to `null` or `""`. */
  function UsernameOrDefault(username: JsValue): (u: JsValue)
    ensures username != Undefined ==> u == username
    ensures username == Undefined ==> u == Str(DefaultUsername) && Truthy(u)
  {
    if username.Undefined? then Str(DefaultUsername) else username
  }

  /** Whether `setSecureItem` reaches the keychain with these arguments: a falsy
      username throws before the native call, and the throw is caught. */
  predicate Writes(username: JsValue, keychainOk: bool) {
    keychainOk && Truthy(UsernameOrDefault(username))
  }

  /** `setSecureItem`: stores `(username, value)` under `service`. A falsy
      username and a failing keychain are both logged and swallowed, so the
      call never fails; the store is then unchanged. */
  function SetSecureItem(store: Store, service: string, username: JsValue, value: JsValue,
                         keychainOk: bool): (r: Store)
    ensures forall k :: k in store && k != service ==> k in r && r[k] == store[k]
    ensures forall k :: k in r && k != service ==> k in store
    ensures Writes(username, keychainOk) ==>
      service in r && r[service].value == value && Truthy(r[service].username)
    ensures !Writes(username, keychainOk) ==> r == store
  {
    if Writes(username, keychainOk) then
      store[service := Credential(UsernameOrDefault(username), value)]
    else store
  }

  /** `getSecureItem`: the entry stored under `service`, or `None` (the
      source's `null`) when there is none or the keychain read fails. */
  function GetSecureItem(store: Store, service: string, keychainOk: bool): (r: Option<Credential>)
    ensures r.Some? <==> keychainOk && service in store
    ensures r.Some? ==> r.value == store[service]
  {
    if keychainOk && service in store then Some(store[service]) else None
  }

  /** Reading back what was just written gives the stored value and the
      username, defaulted when it was omitted. */
  lemma ReadAfterWrite(store: Store, service: string, username: JsValue, value: JsValue)
    requires Truthy(UsernameOrDefault(username))
    ensures GetSecureItem(SetSecureItem(store, service, username, value, true), service, true)
      == Some(Credential(UsernameOrDefault(username), value))
  {
  }

  /** A write never disturbs the entry of another service. */
  lemma WriteKeepsOtherServices(store: Store, service: string, other: string, username: JsValue,
                                value: JsValue, keychainOk: bool, readOk: bool)
    requires other != service
    ensures GetSecureItem(SetSecureItem(store, service, username, value, keychainOk), other, readOk)
      == GetSecureItem(store, other, readOk)
  {
  }

  /** A falsy username other than `undefined` means nothing is stored. */
  lemma FalsyUsernameStoresNothing(store: Store, service: string, username: JsValue, value: JsValue,
                                   keychainOk: bool)
    requires username != Undefined && !Truthy(username)
    ensures SetSecureItem(store, service, username, value, keychainOk) == store
  {
  }
}

=== FILE: share_file_service.dfy ===
/** Sharing a local file through the native share sheet or straight to
    WhatsApp: the URI normalisation, the MIME lookup and the argument guards.
    The native share module is not modelled; each operation returns the
    request it would hand to it, or `None` when it returns early. */
module ShareFileService {
  import opened Wrappers
  import opened JsValues

  const FilePrefix: string := "file://"
  const ContentPrefix: string := "content://"

  const DefaultMime: string := "application/octet-stream"
  const DefaultFileType: string := "pdf"
  const DefaultTitle: string := "Share File"

  /** The extension-to-MIME table. */
  const MimeMap: map<string, string> := map[
    "pdf" := "application/pdf",
    "png" := "image/png",
    "jpg" := "image/jpeg",
    "jpeg" := "image/jpeg",
    "txt" := "text/plain",
    "json" := "application/json"
  ]

  /** The request `Share.open` receives. */
  datatype OpenRequest = OpenRequest(url: string, mime: string, title: JsValue, failOnCancel: bool)

  /** The request `Share.shareSingle` receives; the target is always WhatsApp. */
  datatype WhatsAppRequest = WhatsAppRequest(url: string, mime: string, failOnCancel: bool)

  predicate StartsWith(s: string, prefix: string) {
    |prefix| <= |s| && s[..|prefix|] == prefix
  }

  predicate IsLocalUri(s: string) {
    StartsWith(s, FilePrefix) || StartsWith(s, ContentPrefix)
  }

  /** `normalizeUri`: a `file://` or `content://` URI as it is, any other
      path with `file://` in front. */
  function NormalizeUri(filePath: string): (r: string)
    ensures IsLocalUri(r)
    ensures IsLocalUri(filePath) ==> r == filePath
    ensures !IsLocalUri(filePath) ==> r[..|FilePrefix|] == FilePrefix && r[|FilePrefix|..] == filePath
  {
    if IsLocalUri(filePath) then filePath else FilePrefix + filePath
  }

  /** Normalising twice is normalising once. */
  lemma NormalizeIdempotent(filePath: string)
    ensures NormalizeUri(NormalizeUri(filePath)) == NormalizeUri(filePath)
  {
  }

  /** The path itself is always the tail of the URI, and nothing but the
      prefix is added. */
  lemma NormalizeKeepsPath(filePath: string)
    ensures var r := NormalizeUri(filePath);
      |r| >= |filePath| && r[|r| - |filePath|..] == filePath
      && (|r| == |filePath| || r == FilePrefix + filePath)
  {
  }

  /** `mimeMap[fileType] || DEFAULT_MIME`, the key being `String(fileType)`. */
  function MimeFor(fileType: JsValue): (r: string)
    ensures r == DefaultMime || r in MimeMap.Values
    ensures ToJsString(fileType) in MimeMap ==> r == MimeMap[ToJsString(fileType)]
    ensures ToJsString(fileType) !in MimeMap ==> r == DefaultMime
  {
    var key := ToJsString(fileType);
    if key in MimeMap then MimeMap[key] else DefaultMime
  }

  /** The table, entry by entry. */
  lemma KnownMimeTypes()
    ensures MimeFor(Str("pdf")) == "application/pdf"
    ensures MimeFor(Str("png")) == "image/png"
    ensures MimeFor(Str("jpg")) == "image/jpeg" && MimeFor(Str("jpeg")) == "image/jpeg"
    ensures MimeFor(Str("txt")) == "text/plain"
    ensures MimeFor(Str("json")) == "application/json"
  {
  }

  /** Any other extension, upper-case spellings included, falls back to the
      generic binary type. */
  lemma UnknownExtensionIsBinary(ext: string)
    requires ext !in {"pdf", "png", "jpg", "jpeg", "txt", "json"}
    ensures MimeFor(Str(ext)) == DefaultMime
  {
  }

  /** The `fileType = 'pdf'` default, which applies to `undefined` only. */
  function FileTypeOrDefault(fileType: JsValue): (t: JsValue)
    ensures fileType != Undefined ==> t == fileType
    ensures fileType == Undefined ==> MimeFor(t) == "application/pdf"
  {
    if fileType.Undefined? then Str(DefaultFileType) else fileType
  }

  /** The guard both functions share: a non-empty string. */
  predicate ValidFilePath(filePath: JsValue) {
    Truthy(filePath) && filePath.Str?
  }

  lemma ValidFilePathIsNonEmptyString(filePath: JsValue)
    ensures ValidFilePath(filePath) <==> filePath.Str? && filePath.s != []
  {
  }

  /** `shareFileOpen`: `None` when the path is not a non-empty string,
      otherwise the share-sheet request. */
  function ShareFileOpen(filePath: JsValue, fileType: JsValue, fileTitle: JsValue): (r: Option<OpenRequest>)
    ensures r.None? <==> !(filePath.Str? && filePath.s != [])
    ensures r.Some? ==>
      && r.value.url == NormalizeUri(filePath.s)
      && r.value.mime == MimeFor(FileTypeOrDefault(fileType))
      && (Truthy(fileTitle) ==> r.value.title == fileTitle)
      && (!Truthy(fileTitle) ==> r.value.title == Str(DefaultTitle))
      && !r.value.failOnCancel
  {
    if !ValidFilePath(filePath) then None
    else
      Some(OpenRequest(NormalizeUri(filePath.s), MimeFor(FileTypeOrDefault(fileType)),
                       Or(fileTitle, Str(DefaultTitle)), false))
  }

  /** With only a path given, the share sheet gets a PDF titled "Share File". */
  lemma OpenDefaults(path: string)
    requires path != []
    ensures ShareFileOpen(Str(path), Undefined, Undefined)
      == Some(OpenRequest(NormalizeUri(path), "application/pdf", Str("Share File"), false))
  {
  }

  /** `shareFileToWhatsApp`: the same guard and lookup, no title. */
  function ShareFileToWhatsApp(filePath: JsValue, fileType: JsValue): (r: Option<WhatsAppRequest>)
    ensures r.None? <==> !(filePath.Str? && filePath.s != [])
    ensures r.Some? ==>
      && r.value.url == NormalizeUri(filePath.s)
      && r.value.mime == MimeFor(FileTypeOrDefault(fileType))
      && !r.value.failOnCancel
  {
    if !ValidFilePath(filePath) then None
    else Some(WhatsAppRequest(NormalizeUri(filePath.s), MimeFor(FileTypeOrDefault(fileType)), false))
  }

  /** Both ways of sharing accept the same paths and send the same URI and
      type. */
  lemma SharingAgrees(filePath: JsValue, fileType: JsValue, fileTitle: JsValue)
    ensures ShareFileOpen(filePath, fileType, fileTitle).Some? <==> ShareFileToWhatsApp(filePath, fileType).Some?
    ensures ShareFileOpen(filePath, fileType, fileTitle).Some? ==>
      ShareFileOpen(filePath, fileType, fileTitle).value.url == ShareFileToWhatsApp(filePath, fileType).value.url
      && ShareFileOpen(filePath, fileType, fileTitle).value.mime == ShareFileToWhatsApp(filePath, fileType).value.mime
  {
  }

  /** An already-local URI reaches the share module untouched. */
  lemma LocalUriUntouched(uri: string, fileType: JsValue)
    requires IsLocalUri(uri)
    ensures ShareFileToWhatsApp(Str(uri), fileType).Some?
    ensures ShareFileToWhatsApp(Str(uri), fileType).value.url == uri
  {
  }
}

=== FILE: string_utils.dfy ===
/** The string helpers of the app (src/shared/utils/stringUtils.js): case
    conversion, labels from identifiers, whitespace clean-up, emptiness,
    truncation and avatar initials. Case mapping and whitespace are ASCII. */
module StringUtils {
  import opened Text
  import opened JsValues

  /** Default `maxLength` of `truncate`. */
  const DefaultMaxLength := 20

  const Ellipsis := "..."

  /* ------------------------------------------------------------------ */
  /* Case helpers                                                        */
  /* ------------------------------------------------------------------ */

  /** The first character is not a lower-case letter and no later character
      is an upper-case letter. */
  predicate Capitalized(s: string) {
    (s == [] || !IsLower(s[0])) && forall i :: 0 < i < |s| ==> !IsUpper(s[i])
  }

  /** `capitalizeFirst`: the first letter in upper case, the rest in lower
      case; the empty string stays empty. */
  function CapitalizeFirst(value: string): (r: string)
    ensures |r| == |value|
    ensures Capitalized(r)
    ensures Lower(r) == Lower(value)
    ensures forall i :: 0 <= i < |r| ==> (IsSpace(r[i]) <==> IsSpace(value[i]))
  {
    if value == [] then []
    else
      var r := [UpperChar(value[0])] + Lower(value[1..]);
      assert forall i :: 0 < i < |r| ==> r[i] == LowerChar(value[i]);
      r
  }

  lemma CapitalizeFirstIdempotent(value: string)
    ensures CapitalizeFirst(CapitalizeFirst(value)) == CapitalizeFirst(value)
  {
  }

  /** One word of `capitalizeWords`: `word.charAt(0).toUpperCase() + word.slice(1)`. */
  function CapitalizeWord(word: string): (r: string)
    ensures |r| == |word|
    ensures word != [] ==> r[0] == UpperChar(word[0]) && r[1..] == word[1..]
  {
    if word == [] then [] else [UpperChar(word[0])] + word[1..]
  }

  function CapitalizeAll(words: seq<string>): (r: seq<string>)
    ensures |r| == |words|
    ensures forall i :: 0 <= i < |words| ==> r[i] == CapitalizeWord(words[i])
  {
    seq(|words|, i requires 0 <= i < |words| => CapitalizeWord(words[i]))
  }

  /** Word-start capitalisation of a string, one character at a time:
      a character is upper-cased when it opens the string (and `atStart`
      holds) or follows a space; every other character is kept. */
  ghost function CapitalizeAtWordStarts(t: string, atStart: bool): (r: string)
    ensures |r| == |t|
    decreases |t|
  {
    if t == [] then []
    else [if atStart then UpperChar(t[0]) else t[0]] + CapitalizeAtWordStarts(t[1..], t[0] == ' ')
  }

  lemma {:induction false} CapitalizeAtWordStartsAt(t: string, atStart: bool, i: int)
    requires 0 <= i < |t|
    ensures CapitalizeAtWordStarts(t, atStart)[i]
      == if (i == 0 && atStart) || (i > 0 && t[i - 1] == ' ') then UpperChar(t[i]) else t[i]
    decreases i
  {
    if i > 0 {
      CapitalizeAtWordStartsAt(t[1..], t[0] == ' ', i - 1);
    }
  }

  /** Splitting on spaces, capitalising each piece and joining again is the
      same as capitalising at every word start. */
  lemma {:induction false} SplitCapitalizeJoin(t: string, atStart: bool)
    ensures var parts := Split(t, ' ');
      Join([if atStart then CapitalizeWord(parts[0]) else parts[0]] + CapitalizeAll(parts[1..]), ' ')
        == CapitalizeAtWordStarts(t, atStart)
    decreases |t|
  {
    if t == [] {
      assert Split(t, ' ') == [[]];
    } else if t[0] == ' ' {
      SplitCapitalizeJoin(t[1..], true);
      CapitalizeJoinAfterSpace(t, atStart);
    } else {
      SplitCapitalizeJoin(t[1..], false);
      CapitalizeJoinAfterChar(t, atStart);
    }
  }

  /** The capitalised join of the pieces, as `SplitCapitalizeJoin` states it. */
  function CapitalizedJoin(t: string, atStart: bool): string {
    var parts := Split(t, ' ');
    Join([if atStart then CapitalizeWord(parts[0]) else parts[0]] + CapitalizeAll(parts[1..]), ' ')
  }

  lemma CapitalizeJoinAfterSpace(t: string, atStart: bool)
    requires t != [] && t[0] == ' '
    requires CapitalizedJoin(t[1..], true) == CapitalizeAtWordStarts(t[1..], true)
    ensures CapitalizedJoin(t, atStart) == CapitalizeAtWordStarts(t, atStart)
  {
    var parts := Split(t, ' ');
    var rest := Split(t[1..], ' ');
    var tail := CapitalizeAll(rest[1..]);
    assert parts[1..] == rest;
    assert CapitalizeAll(rest) == [CapitalizeWord(rest[0])] + tail;
    var first: string := if atStart then CapitalizeWord(parts[0]) else parts[0];
    assert first == [];
    var all := [first] + CapitalizeAll(parts[1..]);
    assert all[1..] == CapitalizeAll(rest);
  }

  lemma CapitalizeJoinAfterChar(t: string, atStart: bool)
    requires t != [] && t[0] != ' '
    requires CapitalizedJoin(t[1..], false) == CapitalizeAtWordStarts(t[1..], false)
    ensures CapitalizedJoin(t, atStart) == CapitalizeAtWordStarts(t, atStart)
  {
    var parts := Split(t, ' ');
    var rest := Split(t[1..], ' ');
    var tail := CapitalizeAll(rest[1..]);
    assert parts[0] == [t[0]] + rest[0];
    assert parts[1..] == rest[1..];
    var c := if atStart then UpperChar(t[0]) else t[0];
    var first: string := if atStart then CapitalizeWord(parts[0]) else parts[0];
    assert first == [c] + rest[0];
    JoinConsFirst(c, rest[0], tail, ' ');
  }


  /** `capitalizeWords`: lower-case the string, split it on single spaces,
      upper-case the first character of every piece and join with spaces. */
  function CapitalizeWords(value: string): (r: string)
    ensures |r| == |value|
    ensures forall i :: 0 <= i < |value| ==>
      r[i] == if i == 0 || value[i - 1] == ' ' then UpperChar(value[i]) else LowerChar(value[i])
  {
    if value == [] then []
    else
      var t := Lower(value);
      CapitalizeWordsAt(value);
      Join(CapitalizeAll(Split(t, ' ')), ' ')
  }

  lemma CapitalizeWordsAt(value: string)
    requires value != []
    ensures var r := Join(CapitalizeAll(Split(Lower(value), ' ')), ' ');
      && |r| == |value|
      && forall i :: 0 <= i < |value| ==>
        r[i] == if i == 0 || value[i - 1] == ' ' then UpperChar(value[i]) else LowerChar(value[i])
  {
    var t := Lower(value);
    var parts := Split(t, ' ');
    var all := CapitalizeAll(parts);
    assert all == [CapitalizeWord(parts[0])] + CapitalizeAll(parts[1..]);
    SplitCapitalizeJoin(t, true);
    forall i | 0 <= i < |value|
      ensures CapitalizeAtWordStarts(t, true)[i]
        == if i == 0 || value[i - 1] == ' ' then UpperChar(value[i]) else LowerChar(value[i])
    {
      CapitalizeAtWordStartsAt(t, true, i);
      if i > 0 {
        assert t[i - 1] == ' ' <==> value[i - 1] == ' ';
      }
    }
  }

  /** Spaces are kept exactly where they were, so words keep their positions. */
  lemma CapitalizeWordsKeepsSpaces(value: string)
    ensures forall i :: 0 <= i < |value| ==> (CapitalizeWords(value)[i] == ' ' <==> value[i] == ' ')
  {
    var r := CapitalizeWords(value);
    forall i | 0 <= i < |value|
      ensures r[i] == ' ' <==> value[i] == ' '
    {
      var c := value[i];
      assert r[i] == if i == 0 || value[i - 1] == ' ' then UpperChar(c) else LowerChar(c);
      assert UpperChar(c) == ' ' <==> c == ' ';
      assert LowerChar(c) == ' ' <==> c == ' ';
    }
  }

  /* ------------------------------------------------------------------ */
  /* Removing and normalising whitespace                                 */
  /* ------------------------------------------------------------------ */

  /** `removeSpaces`: the input with every whitespace character deleted. */
  function RemoveSpaces(value: string): (r: string)
    ensures NoSpace(r)
    ensures |r| <= |value|
    decreases |value|
  {
    if value == [] then []
    else (if IsSpace(value[0]) then [] else [value[0]]) + RemoveSpaces(value[1..])
  }

  /** Every non-whitespace character occurs in the result as often as in the input. */
  lemma {:induction false} RemoveSpacesKeepsCounts(value: string)
    ensures forall c :: !IsSpace(c) ==> multiset(RemoveSpaces(value))[c] == multiset(value)[c]
    decreases |value|
  {
    if value != [] {
      RemoveSpacesKeepsCounts(value[1..]);
      assert value == [value[0]] + value[1..];
    }
  }

  lemma {:induction false} RemoveSpacesConcat(a: string, b: string)
    ensures RemoveSpaces(a + b) == RemoveSpaces(a) + RemoveSpaces(b)
    decreases |a|
  {
    if a == [] {
      assert a + b == b;
    } else {
      var head := if IsSpace(a[0]) then [] else [a[0]];
      assert (a + b)[0] == a[0];
      assert (a + b)[1..] == a[1..] + b;
      RemoveSpacesConcat(a[1..], b);
      assert RemoveSpaces(a + b) == head + (RemoveSpaces(a[1..]) + RemoveSpaces(b));
      assert head + (RemoveSpaces(a[1..]) + RemoveSpaces(b)) == (head + RemoveSpaces(a[1..])) + RemoveSpaces(b);
    }
  }

  lemma {:induction false} RemoveSpacesOfBlank(s: string)
    requires AllSpace(s)
    ensures RemoveSpaces(s) == []
    decreases |s|
  {
    if s != [] {
      RemoveSpacesOfBlank(s[1..]);
    }
  }

  /** The strings `removeSpaces` leaves unchanged are exactly the
      whitespace-free ones; in particular it is idempotent. */
  lemma {:induction false} RemoveSpacesFixpoint(s: string)
    ensures RemoveSpaces(s) == s <==> NoSpace(s)
    ensures RemoveSpaces(RemoveSpaces(s)) == RemoveSpaces(s)
    decreases |s|
  {
    if s != [] {
      RemoveSpacesFixpoint(s[1..]);
      if NoSpace(s) {
        assert NoSpace(s[1..]);
      }
    }
    RemoveSpacesFixpointOfNoSpace(RemoveSpaces(s));
  }

  lemma {:induction false} RemoveSpacesFixpointOfNoSpace(s: string)
    requires NoSpace(s)
    ensures RemoveSpaces(s) == s
    decreases |s|
  {
    if s != [] {
      RemoveSpacesFixpointOfNoSpace(s[1..]);
    }
  }

  /** Case mapping and whitespace deletion commute. */
  lemma {:induction false} LowerRemoveSpaces(s: string)
    ensures RemoveSpaces(Lower(s)) == Lower(RemoveSpaces(s))
    decreases |s|
  {
    if s != [] {
      assert Lower(s)[1..] == Lower(s[1..]);
      LowerRemoveSpaces(s[1..]);
      LowerConcat(if IsSpace(s[0]) then [] else [s[0]], RemoveSpaces(s[1..]));
    }
  }

  /** Trimming deletes only whitespace. */
  lemma TrimKeepsContent(s: string)
    ensures RemoveSpaces(Trim(s)) == RemoveSpaces(s)
  {
    var k := LeadingSpace(s);
    var pre, post := s[..k], s[TrailingSpace(s, k)..];
    var r := Trim(s);
    TrimDecomposes(s);
    RemoveSpacesConcat(pre + r, post);
    RemoveSpacesConcat(pre, r);
    RemoveSpacesOfBlank(pre);
    RemoveSpacesOfBlank(post);
  }

  /** No whitespace character is directly followed by another one. */
  predicate NoDoubleSpace(s: string) {
    forall i :: 0 <= i < |s| - 1 ==> !IsSpace(s[i]) || !IsSpace(s[i + 1])
  }

  /** The only whitespace character present is the plain space. */
  predicate PlainSpaces(s: string) {
    forall i :: 0 <= i < |s| ==> IsSpace(s[i]) ==> s[i] == ' '
  }

  /** The shape `normalizeSpaces` produces. */
  predicate Normalized(s: string) {
    NoEdgeSpace(s) && NoDoubleSpace(s) && PlainSpaces(s)
  }

  /** `replace(/\s+/g, ' ')`: every maximal run of whitespace becomes one space. */
  function CollapseSpaces(s: string): (r: string)
    ensures NoDoubleSpace(r)
    ensures PlainSpaces(r)
    ensures s == [] <==> r == []
    ensures s != [] ==> (IsSpace(r[0]) <==> IsSpace(s[0]))
    decreases |s|
  {
    if s == [] then []
    else if IsSpace(s[0]) then [' '] + CollapseSpaces(TrimStart(s))
    else [s[0]] + CollapseSpaces(s[1..])
  }

  lemma {:induction false} CollapseKeepsContent(s: string)
    ensures RemoveSpaces(CollapseSpaces(s)) == RemoveSpaces(s)
    decreases |s|
  {
    if s != [] {
      if IsSpace(s[0]) {
        var t := TrimStart(s);
        var k := LeadingSpace(s);
        CollapseKeepsContent(t);
        RemoveSpacesConcat([' '], CollapseSpaces(t));
        assert s == s[..k] + t;
        RemoveSpacesConcat(s[..k], t);
        RemoveSpacesOfBlank(s[..k]);
      } else {
        CollapseKeepsContent(s[1..]);
        RemoveSpacesConcat([s[0]], CollapseSpaces(s[1..]));
        assert s == [s[0]] + s[1..];
        RemoveSpacesConcat([s[0]], s[1..]);
      }
    }
  }

  lemma {:induction false} CollapseOfCollapsed(s: string)
    requires NoDoubleSpace(s) && PlainSpaces(s)
    ensures CollapseSpaces(s) == s
    decreases |s|
  {
    if s != [] {
      if IsSpace(s[0]) {
        assert LeadingSpace(s) == 1;
      }
      CollapseOfCollapsed(s[1..]);
    }
  }

  /** A space in front of the collapsed text when the input starts with
      whitespace. */
  function Lead(s: string): string {
    if s != [] && IsSpace(s[0]) then " " else []
  }

  /** A space behind the collapsed text when the input ends with whitespace
      after some word. */
  function Trail(s: string): string {
    if s != [] && !AllSpace(s) && IsSpace(s[|s| - 1]) then " " else []
  }

  /** A leading word is copied by the collapse. */
  lemma {:induction false} CollapseWord(s: string, k: nat)
    requires k <= |s| && NoSpace(s[..k])
    ensures CollapseSpaces(s) == s[..k] + CollapseSpaces(s[k..])
    decreases k
  {
    if k > 0 {
      assert !IsSpace(s[..k][0]);
      WordSlices(s, k);
      CollapseWord(s[1..], k - 1);
      ConsAssoc(s[0], s[1..][..k - 1], CollapseSpaces(s[k..]), s[..k]);
    }
  }

  lemma WordSlices(s: string, k: nat)
    requires 0 < k <= |s|
    ensures s[1..][..k - 1] == s[..k][1..]
    ensures s[1..][k - 1..] == s[k..]
    ensures [s[0]] + s[1..][..k - 1] == s[..k]
  {
  }

  lemma ConsAssoc(c: char, a: string, b: string, p: string)
    requires p == [c] + a
    ensures [c] + (a + b) == p + b
  {
  }

  /** Collapsing writes the words of the input joined by single spaces, with
      one space in front when the input starts with whitespace and one behind
      when it ends with whitespace: each maximal whitespace run becomes
      exactly one space. */
  lemma {:induction false} CollapseIsWordsJoined(s: string)
    ensures CollapseSpaces(s) == Lead(s) + Unwords(Words(s)) + Trail(s)
    decreases |s|
  {
    if s != [] {
      if IsSpace(s[0]) {
        CollapseIsWordsJoined(TrimStart(s));
        CollapseAfterSpace(s);
      } else {
        CollapseIsWordsJoined(s[WordLength(s)..]);
        CollapseAfterWord(s);
      }
    }
  }

  lemma CollapseAfterSpace(s: string)
    requires s != [] && IsSpace(s[0])
    requires var t := TrimStart(s);
      CollapseSpaces(t) == Lead(t) + Unwords(Words(t)) + Trail(t)
    ensures CollapseSpaces(s) == Lead(s) + Unwords(Words(s)) + Trail(s)
  {
    var t := TrimStart(s);
    SpaceStartFacts(s);
    CombineSpace(CollapseSpaces(s), Lead(s), Unwords(Words(s)), Trail(s), CollapseSpaces(t), Lead(t), Trail(t));
  }

  /** A leading whitespace run becomes one space and changes neither the
      words nor the trailing space. */
  lemma SpaceStartFacts(s: string)
    requires s != [] && IsSpace(s[0])
    ensures var t := TrimStart(s);
      && CollapseSpaces(s) == " " + CollapseSpaces(t)
      && Lead(s) == " " && Lead(t) == []
      && Words(s) == Words(t) && Trail(t) == Trail(s)
  {
    var t := TrimStart(s);
    WordsAfterSpace(s);
    if AllSpace(t) {
      assert t == [];
      assert AllSpace(s);
    } else {
      TrailOfSuffix(s, LeadingSpace(s));
    }
  }

  /** The bookkeeping of `CollapseAfterSpace`. */
  lemma CombineSpace(c: string, l: string, u: string, t: string, ct: string, lt: string, tt: string)
    requires c == " " + ct && ct == lt + u + tt && lt == [] && l == " " && tt == t
    ensures c == l + u + t
  {
  }

  /** Dropping leading text keeps the trailing space when some word remains. */
  lemma TrailOfSuffix(s: string, k: nat)
    requires k <= |s| && !AllSpace(s[k..])
    ensures Trail(s[k..]) == Trail(s)
  {
    var t := s[k..];
    assert t[|t| - 1] == s[|s| - 1];
    assert !AllSpace(s) by {
      var i :| 0 <= i < |t| && !IsSpace(t[i]);
      assert s[k + i] == t[i];
    }
  }

  lemma CollapseAfterWord(s: string)
    requires s != [] && !IsSpace(s[0])
    requires var u := s[WordLength(s)..];
      CollapseSpaces(u) == Lead(u) + Unwords(Words(u)) + Trail(u)
    ensures CollapseSpaces(s) == Lead(s) + Unwords(Words(s)) + Trail(s)
  {
    var k := WordLength(s);
    var w, u := s[..k], s[k..];
    CollapseWord(s, k);
    WordsOfWordStart(s);
    if AllSpace(u) {
      LastWordFacts(s, k);
    } else {
      InnerWordFacts(s, k);
    }
    Combine(CollapseSpaces(s), Lead(s), Unwords(Words(s)), Trail(s), w, Lead(u), Unwords(Words(u)), Trail(u));
  }

  /** When only whitespace follows the word, the joined words are the word. */
  lemma LastWordFacts(s: string, k: nat)
    requires s != [] && !IsSpace(s[0]) && k == WordLength(s)
    requires Words(s) == [s[..k]] + Words(s[k..]) && AllSpace(s[k..])
    ensures Unwords(Words(s[k..])) == [] && Unwords(Words(s)) == s[..k]
    ensures Lead(s[k..]) + Trail(s[k..]) == Trail(s)
  {
    WordsOfBlank(s[k..]);
    LastWordTrail(s, k);
  }

  /** When another word follows, one space joins the two. */
  lemma InnerWordFacts(s: string, k: nat)
    requires s != [] && !IsSpace(s[0]) && k == WordLength(s)
    requires Words(s) == [s[..k]] + Words(s[k..]) && !AllSpace(s[k..])
    ensures Unwords(Words(s)) == s[..k] + Lead(s[k..]) + Unwords(Words(s[k..]))
    ensures Trail(s[k..]) == Trail(s)
  {
    var u := s[k..];
    WordsOfBlank(u);
    UnwordsCons(s[..k], Words(u));
    assert u != [];
    assert u[0] == s[k] && IsSpace(s[k]);
    TrailOfSuffix(s, k);
  }

  /** The bookkeeping of `CollapseAfterWord`: the word, then either nothing
      but the trailing space, or one space and the rest. */
  lemma Combine(c: string, l: string, u: string, t: string, w: string, a: string, b: string, d: string)
    requires c == w + (a + b + d) && l == []
    requires (b == [] && u == w && a + d == t) || (u == w + a + b && d == t)
    ensures c == l + u + t
  {
  }

  /** After the last word, the collapse writes one space exactly when
      whitespace follows. */
  lemma LastWordTrail(s: string, k: nat)
    requires s != [] && !IsSpace(s[0]) && 0 < k <= |s| && NoSpace(s[..k])
    requires AllSpace(s[k..])
    ensures Lead(s[k..]) + Trail(s[k..]) == Trail(s)
  {
    var u := s[k..];
    assert Trail(u) == [];
    assert !AllSpace(s);
    if u == [] {
      assert s[|s| - 1] == s[..k][k - 1];
    } else {
      assert s[|s| - 1] == u[|u| - 1];
    }
  }



  /** `normalizeSpaces` is the input's words joined by single spaces. */
  lemma NormalizeIsWordsJoined(s: string)
    ensures Trim(CollapseSpaces(s)) == Unwords(Words(s))
  {
    CollapseIsWordsJoined(s);
    TrimOfJoined(Lead(s), Words(s), Trail(s));
  }

  /** Trimming the words between edge spaces gives the joined words. */
  lemma TrimOfJoined(l: string, ws: seq<string>, t: string)
    requires l == [] || l == " "
    requires t == [] || t == " "
    requires forall i :: 0 <= i < |ws| ==> ws[i] != [] && NoSpace(ws[i])
    ensures Trim(l + Unwords(ws) + t) == Unwords(ws)
  {
    if ws == [] {
      BlankCollapse(l, Unwords(ws), t);
      TrimEmptyIff(l + Unwords(ws) + t);
    } else {
      UnwordsShape(ws);
      TrimUnique(l, Unwords(ws), t);
    }
  }

  lemma BlankCollapse(l: string, u: string, t: string)
    requires AllSpace(l) && u == [] && AllSpace(t)
    ensures AllSpace(l + u + t)
  {
  }


  /** A slice keeps the "no double space" and "plain spaces" shapes. */
  lemma SliceKeepsShape(s: string, i: int, j: int)
    requires 0 <= i <= j <= |s|
    requires NoDoubleSpace(s) && PlainSpaces(s)
    ensures NoDoubleSpace(s[i..j]) && PlainSpaces(s[i..j])
  {
    var t := s[i..j];
    forall k | 0 <= k < |t| - 1
      ensures !IsSpace(t[k]) || !IsSpace(t[k + 1])
    {
      assert t[k] == s[i + k] && t[k + 1] == s[i + k + 1];
    }
  }

  /* ------------------------------------------------------------------ */
  /* Words                                                               */
  /* ------------------------------------------------------------------ */

  /** Length of the leading run of non-whitespace characters. */
  function WordLength(s: string): (k: nat)
    ensures k <= |s|
    ensures forall i :: 0 <= i < k ==> !IsSpace(s[i])
    ensures k < |s| ==> IsSpace(s[k])
    decreases |s|
  {
    if s != [] && !IsSpace(s[0]) then 1 + WordLength(s[1..]) else 0
  }

  /** The words of a string: its maximal runs of non-whitespace characters,
      in order. */
  function Words(s: string): (ws: seq<string>)
    ensures forall i :: 0 <= i < |ws| ==> ws[i] != [] && NoSpace(ws[i])
    decreases |s|
  {
    var t := TrimStart(s);
    if t == [] then []
    else
      var k := WordLength(t);
      [t[..k]] + Words(t[k..])
  }

  /** Words joined by single spaces; nothing for no words. */
  function Unwords(ws: seq<string>): string {
    if ws == [] then [] else Join(ws, ' ')
  }

  /** A string has no words exactly when it is blank. */
  lemma WordsOfBlank(s: string)
    ensures Words(s) == [] <==> AllSpace(s)
  {
    if AllSpace(s) {
      assert LeadingSpace(s) == |s|;
    }
  }

  /** Leading whitespace does not change the words. */
  lemma WordsAfterSpace(s: string)
    ensures Words(s) == Words(TrimStart(s))
  {
    var t := TrimStart(s);
    assert LeadingSpace(t) == 0;
    assert TrimStart(t) == t;
  }

  /** A string that starts with a word has that word first. */
  lemma WordsOfWordStart(s: string)
    requires s != [] && !IsSpace(s[0])
    ensures Words(s) == [s[..WordLength(s)]] + Words(s[WordLength(s)..])
  {
    assert LeadingSpace(s) == 0;
    assert TrimStart(s) == s;
  }

  /** Joining non-empty words gives no whitespace at either end. */
  lemma {:induction false} UnwordsShape(ws: seq<string>)
    requires ws != []
    requires forall i :: 0 <= i < |ws| ==> ws[i] != [] && NoSpace(ws[i])
    ensures Unwords(ws) != [] && NoEdgeSpace(Unwords(ws))
    ensures Unwords(ws)[0] == ws[0][0]
    decreases |ws|
  {
    if |ws| > 1 {
      UnwordsShape(ws[1..]);
      var j := Join(ws[1..], ' ');
      assert Join(ws, ' ') == ws[0] + [' '] + j;
      assert Join(ws, ' ')[|Join(ws, ' ')| - 1] == j[|j| - 1];
    }
  }

  /** Two or more words: the first, one space, and the join of the rest. */
  lemma UnwordsCons(w: string, ws: seq<string>)
    requires ws != []
    ensures Unwords([w] + ws) == w + " " + Unwords(ws)
  {
    assert ([w] + ws)[1..] == ws;
  }

  /** The words of a joined list are the list: joining and splitting into
      words are inverse on lists of non-empty words. */
  lemma {:induction false} WordsOfUnwords(ws: seq<string>)
    requires forall i :: 0 <= i < |ws| ==> ws[i] != [] && NoSpace(ws[i])
    ensures Words(Unwords(ws)) == ws
    decreases |ws|
  {
    if |ws| == 1 {
      WordsOfOneWord(ws[0]);
      assert ws == [ws[0]];
    } else if |ws| > 1 {
      var rest := ws[1..];
      WordsOfUnwords(rest);
      UnwordsShape(rest);
      UnwordsCons(ws[0], rest);
      assert ws == [ws[0]] + rest;
      WordsOfWordThenSpace(ws[0], Unwords(rest));
    }
  }

  lemma WordsOfOneWord(w: string)
    requires w != [] && NoSpace(w)
    ensures Words(w) == [w]
  {
    assert WordLength(w) == |w|;
    WordsOfWordStart(w);
    assert w[..|w|] == w;
    assert w[|w|..] == [];
  }

  /** A word, one space, then text that starts with a word: the word comes
      first, and the text supplies the rest. */
  lemma WordsOfWordThenSpace(w: string, x: string)
    requires w != [] && NoSpace(w) && x != [] && !IsSpace(x[0])
    ensures Words(w + " " + x) == [w] + Words(x)
  {
    var u := w + " " + x;
    assert u == w + (" " + x);
    assert u[|w|] == ' ';
    assert forall i :: 0 <= i < |w| ==> u[i] == w[i];
    assert WordLength(u) == |w|;
    WordsOfWordStart(u);
    assert u[..|w|] == w;
    var v := u[|w|..];
    assert v == " " + x;
    WordsAfterSpace(v);
    assert LeadingSpace(v) == 1;
    assert TrimStart(v) == x;
  }

  /** The trim of a whitespace run, a non-empty text without edge whitespace
      and another whitespace run is that text. */
  lemma TrimUnique(a: string, r: string, b: string)
    requires AllSpace(a) && AllSpace(b) && r != [] && NoEdgeSpace(r)
    ensures Trim(a + r + b) == r
  {
    var s := a + r + b;
    assert forall i :: 0 <= i < |a| ==> s[i] == a[i];
    assert forall i :: |a| + |r| <= i < |s| ==> s[i] == b[i - |a| - |r|];
    assert s[|a|] == r[0];
    assert s[|a| + |r| - 1] == r[|r| - 1];
    var k := LeadingSpace(s);
    assert k == |a|;
    var e := TrailingSpace(s, k);
    assert e == |a| + |r|;
    assert s[k..e] == r;
  }

  /** `normalizeSpaces`: whitespace runs collapsed to one space, then
      trimmed; what is left is the input's words joined by single spaces. */
  function NormalizeSpaces(value: string): (r: string)
    ensures Normalized(r)
    ensures r == Unwords(Words(value))
  {
    TrimKeepsShape(CollapseSpaces(value));
    NormalizeIsWordsJoined(value);
    Trim(CollapseSpaces(value))
  }

  lemma TrimKeepsShape(s: string)
    requires NoDoubleSpace(s) && PlainSpaces(s)
    ensures Normalized(Trim(s))
  {
    TrimDecomposes(s);
    SliceKeepsShape(s, LeadingSpace(s), TrailingSpace(s, LeadingSpace(s)));
  }

  /** The strings `normalizeSpaces` leaves unchanged are exactly the
      normalised ones; in particular it is idempotent. */
  lemma NormalizeSpacesFixpoint(s: string)
    ensures NormalizeSpaces(s) == s <==> Normalized(s)
    ensures NormalizeSpaces(NormalizeSpaces(s)) == NormalizeSpaces(s)
  {
    NormalizeOfNormalized(NormalizeSpaces(s));
    if Normalized(s) {
      NormalizeOfNormalized(s);
    }
  }

  lemma NormalizeOfNormalized(s: string)
    requires Normalized(s)
    ensures NormalizeSpaces(s) == s
  {
    CollapseOfCollapsed(s);
    TrimOfTrimmed(s);
  }

  /** `normalizeSpaces` deletes and rewrites whitespace only: the other
      characters are kept, in order. */
  lemma NormalizeSpacesKeepsContent(s: string)
    ensures RemoveSpaces(NormalizeSpaces(s)) == RemoveSpaces(s)
  {
    TrimKeepsContent(CollapseSpaces(s));
    CollapseKeepsContent(s);
  }

  /** `normalizeForSearch`: normalised spacing, lower case. */
  function NormalizeForSearch(value: string): (r: string)
    ensures r == Lower(NormalizeSpaces(value))
    ensures r == Lower(Unwords(Words(value)))
    ensures Normalized(r)
    ensures NoUpper(r)
    ensures RemoveSpaces(r) == Lower(RemoveSpaces(value))
  {
    var n := NormalizeSpaces(value);
    var r := Lower(n);
    LowerKeepsNormalized(n);
    LowerRemoveSpaces(n);
    NormalizeSpacesKeepsContent(value);
    r
  }

  lemma LowerKeepsNormalized(s: string)
    requires Normalized(s)
    ensures Normalized(Lower(s))
  {
    var l := Lower(s);
    forall k | 0 <= k < |l| - 1
      ensures !IsSpace(l[k]) || !IsSpace(l[k + 1])
    {
      assert IsSpace(l[k]) <==> IsSpace(s[k]);
      assert IsSpace(l[k + 1]) <==> IsSpace(s[k + 1]);
    }
  }

  lemma NormalizeForSearchIdempotent(value: string)
    ensures NormalizeForSearch(NormalizeForSearch(value)) == NormalizeForSearch(value)
  {
    var r := NormalizeForSearch(value);
    NormalizeOfNormalized(r);
    LowerOfLowercase(r);
  }

  /* ------------------------------------------------------------------ */
  /* Validation and fallbacks                                            */
  /* ------------------------------------------------------------------ */

  /** `isEmpty`: the empty string or whitespace only. */
  function IsEmpty(value: string): (b: bool)
    ensures b <==> AllSpace(value)
  {
    TrimEmptyIff(value);
    value == [] || |Trim(value)| == 0
  }

  /** `safeString`: the value's string form when it is truthy, the fallback otherwise. */
  function SafeString(value: JsValue, fallback: string): (r: string)
    ensures !Truthy(value) ==> r == fallback
    ensures value.Str? && value.s != [] ==> r == value.s
    ensures value.Num? && value.n > 0 ==> r == Decimal.NatToString(value.n)
    ensures value.Num? && value.n < 0 ==> r == "-" + Decimal.NatToString(-value.n)
    ensures value == Bool(true) ==> r == "true"
    ensures value.Obj? ==> r == "[object Object]"
    ensures value.Arr? ==> r == ToJsString(value)
  {
    if Truthy(value) then ToJsString(value) else fallback
  }

  /* ------------------------------------------------------------------ */
  /* Truncation                                                          */
  /* ------------------------------------------------------------------ */

  /** Where `s.slice(0, end)` stops on a string of length `len`: a negative
      end counts back from the end of the string. */
  function SliceEnd(len: nat, end: int): (k: nat)
    ensures k <= len
  {
    if end < 0 then (if len + end < 0 then 0 else len + end)
    else if end > len then len else end
  }

  /** `truncate(value, maxLength)`. */
  function Truncate(value: string, maxLength: int): (r: string)
    ensures value == [] ==> r == []
    ensures |value| <= maxLength ==> r == value
    ensures 0 <= maxLength < |value| ==> |r| == maxLength + 3 && r == value[..maxLength] + Ellipsis
    ensures maxLength < 0 && value != [] ==>
      r == value[..if |value| + maxLength < 0 then 0 else |value| + maxLength] + Ellipsis
  {
    if value == [] then []
    else if |value| > maxLength then value[..SliceEnd(|value|, maxLength)] + Ellipsis
    else value
  }
  /** `truncate(value)` with the default limit of 20: at most 20 characters
      kept, "..." added when anything was cut. */
  lemma TruncateDefault(value: string)
    ensures |value| <= DefaultMaxLength ==> Truncate(value, DefaultMaxLength) == value
    ensures |value| > DefaultMaxLength ==>
      Truncate(value, DefaultMaxLength) == value[..20] + "..."
  {
  }


  /** A truncated string is the input itself or a proper prefix of it followed
      by the ellipsis, and never longer than the limit plus the ellipsis. */
  lemma TruncateShape(value: string, maxLength: int)
    ensures var r := Truncate(value, maxLength);
      || r == value
      || (|r| >= 3 && |r| - 3 < |value| && r == value[..|r| - 3] + Ellipsis)
    ensures maxLength >= 0 ==> |Truncate(value, maxLength)| <= maxLength + 3
  {
  }

  /* ------------------------------------------------------------------ */
  /* Labels and initials                                                 */
  /* ------------------------------------------------------------------ */

  /** `replace(/[_-]/g, ' ')`. */
  function SeparatorsToSpaces(s: string): (r: string)
    ensures |r| == |s|
    ensures forall i :: 0 <= i < |s| ==> r[i] == if s[i] == '_' || s[i] == '-' then ' ' else s[i]
  {
    seq(|s|, i requires 0 <= i < |s| => if s[i] == '_' || s[i] == '-' then ' ' else s[i])
  }

  /** What `replace(/([A-Z])/g, ' $1')` writes for one character. */
  function Expansion(c: char): (r: string)
    ensures r == [c] || (IsUpper(c) && r == [' ', c])
  {
    if IsUpper(c) then [' ', c] else [c]
  }

  /** The number of capital letters in `s`. */
  function Capitals(s: string): (n: nat)
    ensures n <= |s|
    decreases |s|
  {
    if s == [] then 0 else (if IsUpper(s[0]) then 1 else 0) + Capitals(s[1..])
  }

  /** `replace(/([A-Z])/g, ' $1')`: a space in front of every capital letter. */
  function SpaceBeforeCapitals(s: string): (r: string)
    ensures |r| == |s| + Capitals(s)
    decreases |s|
  {
    if s == [] then [] else Expansion(s[0]) + SpaceBeforeCapitals(s[1..])
  }

  /** Where each character lands: `s[i]` is written, as its expansion, right
      after the rewritten text before it, which is `i` plus the number of
      capitals before it long. */
  lemma SpaceBeforeCapitalsAt(s: string, i: nat)
    requires i < |s|
    ensures SpaceBeforeCapitals(s)
      == SpaceBeforeCapitals(s[..i]) + Expansion(s[i]) + SpaceBeforeCapitals(s[i + 1..])
    ensures |SpaceBeforeCapitals(s[..i])| == i + Capitals(s[..i])
  {
    assert s == s[..i] + ([s[i]] + s[i + 1..]);
    SpaceBeforeCapitalsConcat(s[..i], [s[i]] + s[i + 1..]);
    SpaceBeforeCapitalsConcat([s[i]], s[i + 1..]);
    assert SpaceBeforeCapitals([s[i]]) == Expansion(s[i]);
  }



  /** The inserted characters are all spaces. */
  lemma {:induction false} SpaceBeforeCapitalsKeepsContent(s: string)
    ensures RemoveSpaces(SpaceBeforeCapitals(s)) == RemoveSpaces(s)
    decreases |s|
  {
    if s != [] {
      var head := Expansion(s[0]);
      SpaceBeforeCapitalsKeepsContent(s[1..]);
      RemoveSpacesConcat(head, SpaceBeforeCapitals(s[1..]));
      assert s == [s[0]] + s[1..];
      RemoveSpacesConcat([s[0]], s[1..]);
    }
  }

  /** How `getLabel` spells one character of a key: a `_` or `-` becomes a
      space, a capital becomes a space and its lower-case letter, and any
      other character stays. */
  function Spell(c: char): (r: string)
    ensures NoUpper(r)
  {
    if c == '_' || c == '-' then " " else if IsUpper(c) then [' ', LowerChar(c)] else [c]
  }

  /** A key spelled out one character at a time. */
  function Spelled(key: string): (r: string)
    ensures NoUpper(r)
    decreases |key|
  {
    if key == [] then [] else Spell(key[0]) + Spelled(key[1..])
  }

  /** The three rewrites of `getLabel` (separators to spaces, a space before
      each capital, lower case) spell the key out one character at a time. */
  lemma {:induction false} SpelledStages(key: string)
    ensures Lower(SpaceBeforeCapitals(SeparatorsToSpaces(key))) == Spelled(key)
    decreases |key|
  {
    if key != [] {
      var y := SeparatorsToSpaces(key);
      assert y[1..] == SeparatorsToSpaces(key[1..]);
      SpelledStages(key[1..]);
      LowerConcat(Expansion(y[0]), SpaceBeforeCapitals(y[1..]));
      assert Lower(Expansion(y[0])) == Spell(key[0]);
    }
  }

  /** `getLabel`: identifiers in camelCase, snake_case or kebab-case become
      readable labels. */
  function GetLabel(key: string): (r: string)
    ensures r == CapitalizeFirst(Trim(Spelled(key)))
    ensures NoEdgeSpace(r)
    ensures Capitalized(r)
    ensures RemoveSpaces(Lower(r)) == RemoveSpaces(Lower(SeparatorsToSpaces(key)))
  {
    if key == [] then []
    else
      var y := SeparatorsToSpaces(key);
      var x := SpaceBeforeCapitals(y);
      var l := Lower(x);
      var t := Trim(l);
      SpaceBeforeCapitalsKeepsContent(y);
      GetLabelContent(y, x, l, t);
      SpelledStages(key);
      CapitalizeFirst(t)
  }

  /** Lower-case ASCII letters only, at least one. */
  predicate LowerWord(w: string) {
    w != [] && forall i :: 0 <= i < |w| ==> IsLower(w[i])
  }

  lemma {:induction false} SpaceBeforeCapitalsConcat(u: string, v: string)
    ensures SpaceBeforeCapitals(u + v) == SpaceBeforeCapitals(u) + SpaceBeforeCapitals(v)
    decreases |u|
  {
    if u == [] {
      assert u + v == v;
    } else {
      assert (u + v)[1..] == u[1..] + v;
      SpaceBeforeCapitalsConcat(u[1..], v);
    }
  }

  lemma {:induction false} SpaceBeforeCapitalsOfLowercase(u: string)
    requires NoUpper(u)
    ensures SpaceBeforeCapitals(u) == u
    decreases |u|
  {
    if u != [] {
      SpaceBeforeCapitalsOfLowercase(u[1..]);
    }
  }

  /** Unfolds the definition of `GetLabel` for a non-empty key; a proof
      step for the examples below, not a property. */
  lemma GetLabelStages(key: string)
    requires key != []
    ensures GetLabel(key) == CapitalizeFirst(Trim(Lower(SpaceBeforeCapitals(SeparatorsToSpaces(key)))))
  {
  }

  lemma TwoWordsShape(a: string, b: string)
    requires LowerWord(a) && LowerWord(b)
    ensures var x := a + " " + b;
      NoUpper(x) && NoEdgeSpace(x) && SeparatorsToSpaces(x) == x
  {
  }

  lemma CapitalizeTwoWords(a: string, b: string)
    requires LowerWord(a) && LowerWord(b)
    ensures CapitalizeFirst(a + " " + b) == [UpperChar(a[0])] + a[1..] + " " + b
  {
    var x := a + " " + b;
    var t := a[1..] + " " + b;
    assert x[0] == a[0] && x[1..] == t;
    TailOfLowerWords(a, b);
    assert [UpperChar(a[0])] + t == [UpperChar(a[0])] + a[1..] + " " + b;
  }

  lemma TailOfLowerWords(a: string, b: string)
    requires LowerWord(a) && LowerWord(b)
    ensures Lower(a[1..] + " " + b) == a[1..] + " " + b
  {
    LowerOfLowercase(a[1..] + " " + b);
  }

  /** The stages after the separator step, on two lower-case words. */
  lemma LabelOfTwoWordsSpaced(a: string, b: string)
    requires LowerWord(a) && LowerWord(b)
    ensures CapitalizeFirst(Trim(Lower(SpaceBeforeCapitals(a + " " + b))))
      == [UpperChar(a[0])] + a[1..] + " " + b
  {
    var x := a + " " + b;
    TwoWordsShape(a, b);
    SpaceBeforeCapitalsOfLowercase(x);
    LowerOfLowercase(x);
    TrimOfTrimmed(x);
    CapitalizeTwoWords(a, b);
  }

  /** A label from two lower-case words: the first capitalised, a space, the second. */
  lemma GetLabelOfTwoWords(a: string, b: string)
    requires LowerWord(a) && LowerWord(b)
    ensures GetLabel(a + " " + b) == [UpperChar(a[0])] + a[1..] + " " + b
  {
    GetLabelStages(a + " " + b);
    TwoWordsShape(a, b);
    LabelOfTwoWordsSpaced(a, b);
  }

  lemma SeparatorBecomesSpace(a: string, sep: char, b: string)
    requires LowerWord(a) && LowerWord(b)
    requires sep == '_' || sep == '-'
    ensures SeparatorsToSpaces(a + [sep] + b) == a + " " + b
  {
  }

  /** snake_case and kebab-case: "user_email" becomes "User email",
      "phone-number" becomes "Phone number". */
  lemma GetLabelOfSeparated(a: string, sep: char, b: string)
    requires LowerWord(a) && LowerWord(b)
    requires sep == '_' || sep == '-'
    ensures GetLabel(a + [sep] + b) == [UpperChar(a[0])] + a[1..] + " " + b
  {
    GetLabelStages(a + [sep] + b);
    SeparatorBecomesSpace(a, sep, b);
    LabelOfTwoWordsSpaced(a, b);
  }

  lemma CamelSpaced(a: string, cap: char, b: string)
    requires LowerWord(a) && LowerWord(b) && IsUpper(cap)
    ensures SpaceBeforeCapitals(SeparatorsToSpaces(a + [cap] + b)) == a + " " + [cap] + b
  {
    CamelHasNoSeparator(a, cap, b);
    SpaceBeforeCamel(a, cap, b);
  }

  lemma CamelHasNoSeparator(a: string, cap: char, b: string)
    requires LowerWord(a) && LowerWord(b) && IsUpper(cap)
    ensures SeparatorsToSpaces(a + [cap] + b) == a + [cap] + b
  {
  }

  lemma SpaceBeforeCamel(a: string, cap: char, b: string)
    requires LowerWord(a) && LowerWord(b) && IsUpper(cap)
    ensures SpaceBeforeCapitals(a + [cap] + b) == a + " " + [cap] + b
  {
    CamelParts(a, cap, b);
    SpaceBeforeCapitalsConcat(a, [cap] + b);
    SpaceBeforeCapitalsOfLowercase(a);
    SpaceBeforeCapital(cap, b);
  }

  lemma CamelParts(a: string, cap: char, b: string)
    ensures a + [cap] + b == a + ([cap] + b)
    ensures a + ([' ', cap] + b) == a + " " + [cap] + b
  {
  }

  lemma SpaceBeforeCapital(cap: char, b: string)
    requires LowerWord(b) && IsUpper(cap)
    ensures SpaceBeforeCapitals([cap] + b) == [' ', cap] + b
  {
    SpaceBeforeCapitalsConcat([cap], b);
    SpaceBeforeCapitalsOfLowercase(b);
    assert SpaceBeforeCapitals([cap]) == [' ', cap];
  }

  lemma CamelLowered(a: string, cap: char, b: string)
    requires LowerWord(a) && LowerWord(b) && IsUpper(cap)
    ensures Lower(a + " " + [cap] + b) == a + " " + ([LowerChar(cap)] + b)
  {
  }

  lemma LabelOfLowerWords(a: string, b: string)
    requires LowerWord(a) && LowerWord(b)
    ensures CapitalizeFirst(Trim(a + " " + b)) == [UpperChar(a[0])] + a[1..] + " " + b
  {
    TwoWordsShape(a, b);
    TrimOfTrimmed(a + " " + b);
    CapitalizeTwoWords(a, b);
  }

  lemma LowerWordLowered(cap: char, b: string)
    requires LowerWord(b) && IsUpper(cap)
    ensures LowerWord([LowerChar(cap)] + b)
  {
  }

  lemma CamelLabelled(a: string, cap: char, b: string)
    requires LowerWord(a) && LowerWord(b) && IsUpper(cap)
    ensures CapitalizeFirst(Trim(Lower(a + " " + [cap] + b)))
      == [UpperChar(a[0])] + a[1..] + " " + ([LowerChar(cap)] + b)
  {
    CamelLowered(a, cap, b);
    LowerWordLowered(cap, b);
    LabelOfLowerWords(a, [LowerChar(cap)] + b);
  }

  /** camelCase: "firstName" becomes "First name". */
  lemma GetLabelOfCamelCase(a: string, cap: char, b: string)
    requires LowerWord(a) && LowerWord(b) && IsUpper(cap)
    ensures GetLabel(a + [cap] + b) == [UpperChar(a[0])] + a[1..] + " " + ([LowerChar(cap)] + b)
  {
    GetLabelStages(a + [cap] + b);
    CamelSpaced(a, cap, b);
    CamelLabelled(a, cap, b);
  }

  lemma GetLabelContent(y: string, x: string, l: string, t: string)
    requires RemoveSpaces(x) == RemoveSpaces(y)
    requires l == Lower(x) && t == Trim(l)
    ensures NoEdgeSpace(CapitalizeFirst(t))
    ensures RemoveSpaces(Lower(CapitalizeFirst(t))) == RemoveSpaces(Lower(y))
  {
    CapitalizeFirstEdges(t);
    LabelContent(y, x, l, t);
  }

  lemma CapitalizeFirstEdges(t: string)
    requires NoEdgeSpace(t)
    ensures NoEdgeSpace(CapitalizeFirst(t))
  {
    var r := CapitalizeFirst(t);
    if r != [] {
      assert IsSpace(r[0]) <==> IsSpace(t[0]);
      assert IsSpace(r[|r| - 1]) <==> IsSpace(t[|t| - 1]);
    }
  }

  lemma LabelContent(y: string, x: string, l: string, t: string)
    requires RemoveSpaces(x) == RemoveSpaces(y)
    requires l == Lower(x) && t == Trim(l)
    ensures RemoveSpaces(Lower(CapitalizeFirst(t))) == RemoveSpaces(Lower(y))
  {
    calc {
      RemoveSpaces(Lower(CapitalizeFirst(t)));
      RemoveSpaces(Lower(t));
      { LowerRemoveSpaces(t); }
      Lower(RemoveSpaces(t));
      { TrimKeepsContent(l); }
      Lower(RemoveSpaces(l));
      { LowerRemoveSpaces(x); }
      Lower(Lower(RemoveSpaces(x)));
      { CaseFold(RemoveSpaces(x)); }
      Lower(RemoveSpaces(y));
      { LowerRemoveSpaces(y); }
      RemoveSpaces(Lower(y));
    }
  }

  /** One word: its first two characters. "John" gives "JO". */
  lemma GetInitialsOfOneWord(w: string)
    requires w != [] && NoSpace(w)
    ensures GetInitials(Str(w)) == Upper(w[..if |w| < 2 then |w| else 2])
  {
    TrimOfTrimmed(w);
    assert IndexOf(w, ' ') == |w|;
  }

  lemma IndexOfFirst(a: string, rest: string, c: char)
    requires c !in a && rest != [] && rest[0] == c
    ensures IndexOf(a + rest, c) == |a|
  {
    var s := a + rest;
    assert forall k :: 0 <= k < |a| ==> s[k] == a[k];
    assert s[|a|] == c;
  }

  lemma BlanksBefore(sp: string, b: string)
    requires forall i :: 0 <= i < |sp| ==> sp[i] == ' '
    requires b != [] && b[0] != ' '
    ensures Blanks(sp + b) == |sp|
  {
    var s := sp + b;
    assert forall k :: 0 <= k < |sp| ==> s[k] == sp[k];
    assert s[|sp|] == b[0];
  }

  /** Two words: their first characters, whatever follows the second word and
      however many spaces separate them. "John Doe" gives "JD", and so does
      "  John   Doe Smith ". */
  lemma GetInitialsOfTwoWords(s: string, a: string, sp: string, b: string)
    requires Trim(s) == a + sp + b
    requires a != [] && ' ' !in a
    requires sp != [] && forall i :: 0 <= i < |sp| ==> sp[i] == ' '
    requires b != [] && b[0] != ' '
    ensures GetInitials(Str(s)) == [UpperChar(a[0]), UpperChar(b[0])]
  {
    TrimEmptyIff(s);
    IndexOfFirst(a, sp + b, ' ');
    AfterFirstBlank(a, sp, b);
    BlanksBefore(sp[1..], b);
  }

  lemma AfterFirstBlank(a: string, sp: string, b: string)
    requires sp != [] && b != []
    ensures a + sp + b == a + (sp + b)
    ensures (a + sp + b)[|a| + 1..] == sp[1..] + b
    ensures (a + sp + b)[|a| + 1 + |sp[1..]|] == b[0]
  {
  }

  /** `filter(Boolean)` on the pieces of a split: the non-empty ones, in order. */
  function NonEmpty(parts: seq<string>): (ws: seq<string>)
    ensures |ws| <= |parts|
    ensures forall i :: 0 <= i < |ws| ==> ws[i] != []
    decreases |parts|
  {
    if parts == [] then []
    else (if parts[0] == [] then [] else [parts[0]]) + NonEmpty(parts[1..])
  }

  /** The first word of a string that does not start with a space starts with
      the string's first character. */
  lemma FirstWord(t: string)
    requires t != [] && t[0] != ' '
    ensures var ws := NonEmpty(Split(t, ' '));
      |ws| >= 1 && ws[0][0] == t[0]
  {
    var parts := Split(t, ' ');
    assert parts[0][0] == t[0];
  }

  /** `s.indexOf(c)`, or `|s|` when `c` does not occur. */
  function IndexOf(s: string, c: char): (i: nat)
    ensures i <= |s|
    ensures forall k :: 0 <= k < i ==> s[k] != c
    ensures i < |s| ==> s[i] == c
    ensures i == |s| <==> c !in s
    decreases |s|
  {
    if s == [] || s[0] == c then 0 else 1 + IndexOf(s[1..], c)
  }

  /** The length of the leading run of `' '` characters. */
  function Blanks(s: string): (k: nat)
    ensures k <= |s|
    ensures forall i :: 0 <= i < k ==> s[i] == ' '
    ensures k < |s| ==> s[k] != ' '
    decreases |s|
  {
    if s != [] && s[0] == ' ' then 1 + Blanks(s[1..]) else 0
  }

  lemma NonEmptyCons(w: string, rest: seq<string>)
    requires w != []
    ensures NonEmpty([w] + rest) == [w] + NonEmpty(rest)
  {
    assert ([w] + rest)[1..] == rest;
  }

  /** After the spaces that open `u`, the first word starts at the first
      character that is not a space. */
  lemma {:induction false} FirstWordAfterBlanks(u: string)
    requires Blanks(u) < |u|
    ensures var ws := NonEmpty(Split(u, ' '));
      |ws| >= 1 && ws[0][0] == u[Blanks(u)]
    decreases |u|
  {
    if u[0] == ' ' {
      FirstWordAfterBlanks(u[1..]);
      assert Split(u, ' ')[1..] == Split(u[1..], ' ');
    } else {
      FirstWord(u);
    }
  }

  /** A string that starts with a word and contains a space: the first word
      runs up to that space, and the second starts at the first character
      after it that is not a space. */
  lemma SecondWord(t: string)
    requires t != [] && t[0] != ' ' && t[|t| - 1] != ' ' && ' ' in t
    ensures var i := IndexOf(t, ' ');
      var j := i + 1 + Blanks(t[i + 1..]);
      var ws := NonEmpty(Split(t, ' '));
      && j < |t| && |ws| >= 2 && ws[0][0] == t[0] && ws[1][0] == t[j]
  {
    var i := IndexOf(t, ' ');
    var w, u := t[..i], t[i + 1..];
    SplitAround(t, i);
    SplitAtSeparator(w, u, ' ');
    NonEmptyCons(w, Split(u, ' '));
    FirstWordAfterBlanks(u);
  }

  /** The pieces around a space inside text that starts and ends with
      something other than a space. */
  lemma SplitAround(t: string, i: nat)
    requires t != [] && t[0] != ' ' && t[|t| - 1] != ' '
    requires i < |t| && t[i] == ' '
    ensures t == t[..i] + [' '] + t[i + 1..]
    ensures t[..i] != [] && t[..i][0] == t[0]
    ensures var u := t[i + 1..]; u != [] && u[|u| - 1] != ' '
  {
  }


  /** The initials of a non-empty word list: the first two characters of a
      single word, otherwise the first characters of the first two words. */
  function InitialsOf(words: seq<string>): (r: string)
    requires forall i :: 0 <= i < |words| ==> words[i] != []
    ensures |r| <= 2
    ensures NoLower(r)
    ensures |words| >= 1 ==> r != [] && r[0] == UpperChar(words[0][0])
    ensures |words| == 1 ==> r == Upper(words[0][..if |words[0]| < 2 then |words[0]| else 2])
    ensures |words| >= 2 ==> r == [UpperChar(words[0][0]), UpperChar(words[1][0])]
  {
    if |words| == 0 then []
    else if |words| == 1 then Upper(words[0][..if |words[0]| < 2 then |words[0]| else 2])
    else Upper([words[0][0], words[1][0]])
  }

  /** The initials of text that starts and ends with a word, read off by
      position: its first two characters when it has no space, otherwise its
      first character and the first one after its first run of spaces. */
  function InitialsByPosition(t: string): (r: string)
    requires t != [] && NoEdgeSpace(t)
  {
    var i := IndexOf(t, ' ');
    if i == |t| then Upper(t[..if |t| < 2 then |t| else 2])
    else
      assert t[|t| - 1] != ' ';
      [UpperChar(t[0]), UpperChar(t[i + 1 + Blanks(t[i + 1..])])]
  }

  /** Splitting on spaces and dropping the empty pieces finds the same
      initials as reading them off by position. */
  lemma InitialsOfTrimmed(t: string)
    requires t != [] && NoEdgeSpace(t)
    ensures InitialsOf(NonEmpty(Split(t, ' '))) == InitialsByPosition(t)
  {
    FirstWord(t);
    if ' ' in t {
      SecondWord(t);
    } else {
      SplitWithoutSeparator(t, ' ');
      assert NonEmpty([t]) == [t];
    }
  }

  /** `getInitials`: nothing for a non-string or blank name; otherwise the
      initials of its space-separated words, in upper case. */
  function GetInitials(name: JsValue): (r: string)
    ensures |r| <= 2
    ensures NoLower(r)
    ensures r == [] <==> !name.Str? || AllSpace(name.s)
    ensures r != [] ==> name.Str? && Trim(name.s) != [] && r[0] == UpperChar(Trim(name.s)[0])
    ensures name.Str? && Trim(name.s) != [] ==> r == InitialsByPosition(Trim(name.s))
  {
    if !name.Str? then []
    else if Trim(name.s) == [] then
      TrimEmptyIff(name.s);
      []
    else
      var t := Trim(name.s);
      TrimEmptyIff(name.s);
      InitialsOfTrimmed(t);
      InitialsOf(NonEmpty(Split(t, ' ')))
  }


}

=== FILE: text.dfy ===
/** ASCII text primitives shared by the string, greeting and JavaScript-value
    models: letter case, the whitespace class, trimming, and splitting on a
    separator character. JavaScript's Unicode case tables and its non-ASCII
    whitespace are outside this model. */
module Text {

  predicate IsUpper(c: char) { 'A' <= c <= 'Z' }

  predicate IsLower(c: char) { 'a' <= c <= 'z' }

  /** The characters `\s` and `String.prototype.trim` treat as whitespace,
      restricted to ASCII: tab, line feed, vertical tab, form feed, carriage
      return and space. */
  predicate IsSpace(c: char) {
    c == ' ' || c == '\t' || c == '\n' || c == '\U{000B}' || c == '\U{000C}' || c == '\r'
  }

  predicate AllSpace(s: string) { forall i :: 0 <= i < |s| ==> IsSpace(s[i]) }

  predicate NoSpace(s: string) { forall i :: 0 <= i < |s| ==> !IsSpace(s[i]) }

  predicate NoUpper(s: string) { forall i :: 0 <= i < |s| ==> !IsUpper(s[i]) }

  predicate NoLower(s: string) { forall i :: 0 <= i < |s| ==> !IsLower(s[i]) }

  /** Neither the first nor the last character is whitespace. */
  predicate NoEdgeSpace(s: string) {
    s == [] || (!IsSpace(s[0]) && !IsSpace(s[|s| - 1]))
  }

  function UpperChar(c: char): (r: char)
    ensures !IsLower(r)
    ensures IsSpace(r) <==> IsSpace(c)
    ensures IsLower(c) ==> IsUpper(r)
    ensures !IsLower(c) ==> r == c
  {
    if IsLower(c) then (c as int - 32) as char else c
  }

  function LowerChar(c: char): (r: char)
    ensures !IsUpper(r)
    ensures IsSpace(r) <==> IsSpace(c)
    ensures IsUpper(c) ==> IsLower(r)
    ensures !IsUpper(c) ==> r == c
  {
    if IsUpper(c) then (c as int + 32) as char else c
  }

  /** `toLowerCase`, ASCII letters only. */
  function Lower(s: string): (r: string)
    ensures |r| == |s|
    ensures forall i :: 0 <= i < |s| ==> r[i] == LowerChar(s[i])
    ensures NoUpper(r)
  {
    seq(|s|, i requires 0 <= i < |s| => LowerChar(s[i]))
  }

  /** `toUpperCase`, ASCII letters only. */
  function Upper(s: string): (r: string)
    ensures |r| == |s|
    ensures forall i :: 0 <= i < |s| ==> r[i] == UpperChar(s[i])
    ensures NoLower(r)
  {
    seq(|s|, i requires 0 <= i < |s| => UpperChar(s[i]))
  }

  /** Case mapping is a case fold: idempotent, keeps whitespace where it is,
      and the two directions agree up to case. */
  lemma CaseFold(s: string)
    ensures Lower(Lower(s)) == Lower(s)
    ensures Upper(Upper(s)) == Upper(s)
    ensures Upper(Lower(s)) == Upper(s)
    ensures Lower(Upper(s)) == Lower(s)
    ensures forall i :: 0 <= i < |s| ==> (IsSpace(Lower(s)[i]) <==> IsSpace(s[i]))
  {
  }

  lemma LowerOfLowercase(s: string)
    requires NoUpper(s)
    ensures Lower(s) == s
  {
  }

  lemma LowerConcat(a: string, b: string)
    ensures Lower(a + b) == Lower(a) + Lower(b)
  {
  }

  /** Length of the leading whitespace run. */
  function LeadingSpace(s: string): (k: nat)
    ensures k <= |s|
    ensures forall i :: 0 <= i < k ==> IsSpace(s[i])
    ensures k < |s| ==> !IsSpace(s[k])
    decreases |s|
  {
    if s != [] && IsSpace(s[0]) then 1 + LeadingSpace(s[1..]) else 0
  }

  /** Where the trailing whitespace run starts, looking no further left than
      `from`. */
  function TrailingSpace(s: string, from: nat): (e: nat)
    requires from <= |s|
    ensures from <= e <= |s|
    ensures forall i :: e <= i < |s| ==> IsSpace(s[i])
    ensures from < e ==> !IsSpace(s[e - 1])
    decreases |s|
  {
    if from < |s| && IsSpace(s[|s| - 1]) then TrailingSpace(s[..|s| - 1], from) else |s|
  }

  /** `trimStart`: the input without its leading whitespace run. */
  function TrimStart(s: string): (r: string)
    ensures |r| <= |s|
    ensures r == [] || !IsSpace(r[0])
  {
    s[LeadingSpace(s)..]
  }

  /** `String.prototype.trim`: the input with its leading and trailing
      whitespace runs removed. */
  function Trim(s: string): (r: string)
    ensures |r| <= |s|
    ensures NoEdgeSpace(r)
  {
    s[LeadingSpace(s)..TrailingSpace(s, LeadingSpace(s))]
  }

  /** The input is the leading whitespace, the trimmed text and the trailing
      whitespace, in that order. */
  lemma TrimDecomposes(s: string)
    ensures var k := LeadingSpace(s);
      var e := TrailingSpace(s, k);
      && Trim(s) == s[k..e]
      && s == s[..k] + Trim(s) + s[e..]
      && AllSpace(s[..k])
      && AllSpace(s[e..])
  {
    var k := LeadingSpace(s);
    var e := TrailingSpace(s, k);
    assert s == s[..k] + s[k..e] + s[e..];
  }

  lemma TrimOfTrimmed(s: string)
    requires NoEdgeSpace(s)
    ensures Trim(s) == s
  {
    assert LeadingSpace(s) == 0;
    assert TrailingSpace(s, 0) == |s|;
  }

  /** Trimming leaves nothing exactly when the input is all whitespace. */
  lemma TrimEmptyIff(s: string)
    ensures Trim(s) == [] <==> AllSpace(s)
  {
    var k := LeadingSpace(s);
    var e := TrailingSpace(s, k);
    if Trim(s) == [] {
      assert e == k;
    }
    if AllSpace(s) {
      assert k == |s|;
    }
  }

  /** `s.split(sep)`: the maximal separator-free pieces, in order; an input
      with m separators gives m + 1 pieces, some of them possibly empty. */
  function Split(s: string, sep: char): (parts: seq<string>)
    ensures |parts| >= 1
    ensures forall i :: 0 <= i < |parts| ==> sep !in parts[i]
    decreases |s|
  {
    if s == [] then [[]]
    else
      var rest := Split(s[1..], sep);
      if s[0] == sep then [[]] + rest
      else [[s[0]] + rest[0]] + rest[1..]
  }

  /** `parts.join(sep)`. */
  function Join(parts: seq<string>, sep: char): (r: string)
    requires |parts| >= 1
    decreases |parts|
  {
    if |parts| == 1 then parts[0] else parts[0] + [sep] + Join(parts[1..], sep)
  }

  /** Joining the pieces of a split with the same separator gives the input back. */
  lemma {:induction false} JoinSplit(s: string, sep: char)
    ensures Join(Split(s, sep), sep) == s
    decreases |s|
  {
    if s != [] {
      var rest := Split(s[1..], sep);
      JoinSplit(s[1..], sep);
      if s[0] == sep {
        assert Split(s, sep)[1..] == rest;
      } else {
        var parts := Split(s, sep);
        assert parts[1..] == rest[1..];
        if |rest| > 1 {
          assert Join(rest, sep) == rest[0] + [sep] + Join(rest[1..], sep);
        }
      }
    }
  }

  /** A string without the separator is a single piece. */
  lemma {:induction false} SplitWithoutSeparator(w: string, sep: char)
    requires sep !in w
    ensures Split(w, sep) == [w]
    decreases |w|
  {
    if w != [] {
      SplitWithoutSeparator(w[1..], sep);
      assert [w[0]] + w[1..] == w;
    }
  }

  /** The text up to the first separator is the first piece; the rest is split on. */
  lemma {:induction false} SplitAtSeparator(a: string, b: string, sep: char)
    requires sep !in a
    ensures Split(a + [sep] + b, sep) == [a] + Split(b, sep)
    decreases |a|
  {
    var s := a + [sep] + b;
    if a == [] {
      assert s[1..] == b;
    } else {
      assert s[1..] == a[1..] + [sep] + b;
      SplitAtSeparator(a[1..], b, sep);
      assert [a[0]] + a[1..] == a;
    }
  }

  /** Adding a character in front of the first piece adds it in front of the join. */
  lemma JoinConsFirst(c: char, x: string, tail: seq<string>, sep: char)
    ensures Join([[c] + x] + tail, sep) == [c] + Join([x] + tail, sep)
  {
    var ps := [[c] + x] + tail;
    var qs := [x] + tail;
    if |tail| > 0 {
      assert ps[1..] == tail && qs[1..] == tail;
    }
  }
}

=== FILE: wrappers.dfy ===
/** Option and Result, the two failure-carrying shapes the model uses in place
    of JavaScript's `null`/`undefined` returns and rejected promises. */
module Wrappers {

  datatype Option<+T> = None | Some(value: T)

  /** `Success` is a resolved promise, `Failure` a rejected one. */
  datatype Result<+R, +E> = Success(value: R) | Failure(error: E)
}
